=== FILE: README.md ===
# mgen schema-to-Swift generator, modelled in Dafny

`mgen` builds Swift declarations, as text, from a simplified schema of Rust
types. The driver as written computes that text and then discards it, and
the scanner meant to build the schema from a crate is unfinished. What is
modelled is the schema and the text built from it.

The schema is a tree. A module owns an ordered list of items. Each item is a
nested module, a tagged union (enum) or a record (struct). Union variants and
records own fields, and each field has a type.

The emitter is a set of pure functions from that tree to text:

- the type mapper names primitive, string, path, optional and array types;
- the struct emitter prints a `Codable` record declaration;
- the enum emitter prints a declaration with its case list, an
  `init(from:)` decoder and an `encode(to:)` encoder, both working on an
  unkeyed container;
- two dictionary codec emitters exist for structs (`toJSON`/`fromJSON`) but
  the struct declaration never calls them;
- the tree walker joins the texts of a module's items with `"\n\n\n"`.
  Nested modules contribute their text with nothing around it. Every enum
  and struct text ends in a line break, so three empty lines stand between
  two declarations when no empty module lies between them. An empty nested
  module has the empty text and adds a separator of its own, so each one in
  between adds three more empty lines.

The Dafny modules follow that structure:

- `Schema` holds the tree (`modules/mgen/src/schema/mod.rs`), the empty
  constructors `NewModule`, `NewEnum`, `NewVariant` and `NewStruct`
  (`Module::new`, `Enum::new`, `EnumVariant::new`, `Struct::new` in
  `init.rs`) and the variant well-formedness rule.
- `Text` holds joins, line splitting and decimal numerals. `Lines` splits
  text at line breaks. It inverts `UnLines` on lists of lines that contain no
  line break themselves.
- `TypeMap` holds the type mapper: `TypeName` is `Type::gen_swift_code`,
  `CoreName` its primitive table and `PathName` is
  `TypePath::gen_swift_code`. A parser for the mapper's output serves as its
  inverse.
- `SwiftLines` holds the fixed lines of the generated enum codec.
- `StructGen`, `EnumGen` and `ModuleGen` hold the emitters:
  - `StructGen.StructDecl` is `Struct::gen_swift_code`, `StructMembers` is
    `Struct::gen_members`, and `StructToJson`/`StructFromJson` are
    `Struct::gen_encoding`/`gen_decoding`;
  - `EnumGen.EnumDecl` is `Enum::gen_swift_code`, and `EnumMembers`,
    `EnumEncoding` and `EnumDecoding` are `Enum::gen_members`,
    `gen_encoding` and `gen_decoding`;
  - `ModuleGen.ModuleCode` and `ItemCode` are `Module::gen_swift_code` and
    `Item::gen_swift_code`.

  Each emitter has a line table, built from the same per-line pieces.
  Splitting the emitted text with `Lines` is shown to give back exactly that table, so the
  line structure is checked independently of how the text is assembled.
- `EnumLayout` proves that each enum text splits into its line table, and
  counts the encode and decode calls.
- `Codec` is an abstract model of what the generated Swift would do at run
  time if it compiled. A union value is written as a token list: the variant
  name, then one token per field. It is read back by matching the name
  against the variants in declared order. A record is written as a
  dictionary from field name to value and read back by looking each name up.
  Field values are opaque. `EncodeEnum`/`DecodeEnum` stand for the emitted
  `encode(to:)`/`init(from:)`, and `ToJson`/`FromJson` for the emitted
  `toJSON`/`fromJSON`. Three kinds of emitted code do not compile as
  Swift, and for them `Codec` describes only the abstract model:
  - the decoder of a variant with named fields omits the argument labels;
  - the encoder of a record without fields writes `[` … `] as [String: Any]`;
  - two variants of one enum, or two fields of one struct, with the same
    name are declared twice, which Swift rejects as a redeclaration.

The emitter is modelled as written, including three quirks:

- a struct's declaration does not contain its dictionary codec;
- the enum decoder writes no argument labels, even for record variants;
- module items are joined with `"\n\n\n"`, so an empty nested module still
  adds a separator of its own.

## Model

| member | source | states |
|---|---|---|
| Schema.CoreTypeCatalogue | modules/mgen/src/schema/mod.rs:75-83 | There are exactly eleven primitives, all distinct. A primitive is determined by its signedness class and width. Only `Bool` is boolean. Integers come in 8, 16, 32 and 64 bits, floats in 32 and 64. |
| Schema.VariantFormsExclusive | modules/mgen/src/schema/mod.rs:33-39 | A named variant with fields is well formed exactly when its fields are either all unnamed (tuple form) or all named (record form), never a mix. |
| Schema.NewVariantNeedsName | modules/mgen/src/schema/init.rs:18-20 | A fresh variant breaks the non-empty-name rule. Once a name is filled in, it is well formed exactly when that name is non-empty. |
| Schema.Base | modules/mgen/src/schema/mod.rs:62-71 | Peeling every optional and array wrapper off a type ends at a primitive, string or path type. |
| TypeMap.CoreNameEncodesKindAndWidth | modules/mgen/src/schema/codegen.rs:232-248 | Every primitive except `Bool` is named by its signedness class (`UInt`, `Int`, `Float`) followed by its bit width in decimal. `Bool` is named by its class alone. |
| TypeMap.CoreNameRoundTrip | modules/mgen/src/schema/codegen.rs:232-248 | A primitive is recovered from its Swift name. |
| TypeMap.CoreNameInjective | modules/mgen/src/schema/codegen.rs:232-248 | Two primitives get the same Swift name only if they are the same primitive. |
| TypeMap.TypeNameShape | modules/mgen/src/schema/codegen.rs:250-253 | A type's name is the name of its innermost base type, wrapped in one `Optional<`/`Array<` opener per wrapper (outermost first) and closed by as many `>`. |
| TypeMap.NestedTypeName | modules/mgen/src/schema/codegen.rs:247-253 | An optional array of 32-bit unsigned integers is named `Optional<Array<UInt32>>`. |
| TypeMap.NestedPathTypeName | modules/mgen/src/schema/codegen.rs:251-262 | An array of optional `geo::Point` is named `Array<Optional<Point>>`: a qualified path keeps only its last segment. |
| TypeMap.PathNameLastSegment | modules/mgen/src/schema/codegen.rs:258-262 | A path is named by its last segment whatever its qualifiers are. The empty path is named `????` rather than failing. |
| TypeMap.QualifiedReferencesCollide | modules/mgen/src/schema/codegen.rs:251-262 | Dropping qualifiers loses information: two different paths ending in the same name get the same Swift name, and a path named `String` is indistinguishable from the string type. |
| TypeMap.ParseTypeNameRoundTrip | modules/mgen/src/schema/codegen.rs:227-262 | Parsing the name of a type back gives that type, up to the collisions above: every path is replaced by its last segment. This holds for every type whose path names contain no `<` and are neither a primitive's name nor `String`. |
| TypeMap.TypeNameInjective | modules/mgen/src/schema/codegen.rs:227-262 | For such types, two types get the same Swift name exactly when they agree after each path is cut to its last segment. |
| TypeMap.TypeNameSingleLine | modules/mgen/src/schema/codegen.rs:227-262 | A type's name contains no line break unless one of its path segments does. |
| StructGen.StructDeclLayout | modules/mgen/src/schema/codegen.rs:50-58 | The declaration's lines are the header `struct <name>: Codable {`, then one `    var <field>: <type>` line per field in declared order, then `}`. Nothing else is there, so in particular the dictionary codec is not. |
| StructGen.StructToJsonLayout | modules/mgen/src/schema/codegen.rs:180-198 | The encoder's lines are its signature, `    return [`, one `"<field>": toJSON(v.<field>),` entry per field in declared order, and the closing `] as [String: Any]` and `}`. |
| StructGen.StructFromJsonLayout | modules/mgen/src/schema/codegen.rs:200-224 | The decoder's lines are its signature, the forced cast of the input to a dictionary, and `    let r = <name>(`. Then come one `<field>: fromJSON(o["<field>"]!)` argument per field in declared order, each ending in `,` except the last, which ends in `)`. Then `    return r` and `}`. |
| StructGen.DuplicateFieldsRedeclared | modules/mgen/src/schema/codegen.rs:168-179 | Two fields of the same name give two stored properties of that name, one per field. |
| StructGen.EmptyStructToJson | modules/mgen/src/schema/codegen.rs:180-198 | For a struct without fields, the dictionary encoder writes `    return [` directly followed by `    ] as [String: Any]`, with no entry between them. |
| StructGen.NewStructDecl | modules/mgen/src/schema/init.rs:23-25 | A fresh struct is declared as exactly `struct : Codable {\n}\n`. |
| EnumLayout.EnumDeclLayout | modules/mgen/src/schema/codegen.rs:37-47 | The declaration's lines are: the header; one case line per variant; the decoder's fixed head, its arms and its `default` trap; the encoder's fixed head, its arms and its closing braces; and `}`. |
| EnumLayout.EnumMembersLayout | modules/mgen/src/schema/codegen.rs:71-95 | The case list has one line per variant, in declared order, reading `    case <name>` followed by the payload text. |
| EnumLayout.PayloadDispatch | modules/mgen/src/schema/codegen.rs:76-91 | The payload text is empty exactly when there are no fields, so the parentheses appear iff there is a field. Tuple fields are written as their types alone and record fields as `name: type`, joined by `, `. |
| EnumLayout.TupleAndUnitCases | modules/mgen/src/schema/codegen.rs:71-95 | A one-field tuple variant followed by a unit variant gives `    case a(<type>)` and then `    case b`. |
| EnumLayout.DuplicateCasesRedeclared | modules/mgen/src/schema/codegen.rs:71-95 | Two field-less variants of the same name give two identical `    case <name>` lines. |
| EnumLayout.EncodeCaseLayout | modules/mgen/src/schema/codegen.rs:101-125 | An encoder arm's lines are the pattern binding `let f0 … let f(k-1)`, the write of the quoted variant name, and one write of `fj` per field in order. |
| EnumLayout.EncodeCallCount | modules/mgen/src/schema/codegen.rs:118-124 | An encoder arm for a variant with k fields holds exactly k+1 lines starting with the encode call. |
| EnumLayout.BindingsDistinct | modules/mgen/src/schema/codegen.rs:107-111 | The names `f0 … f(k-1)` that an encoder arm binds are pairwise distinct. |
| EnumLayout.DecodeCaseLayout | modules/mgen/src/schema/codegen.rs:137-156 | A decoder arm's lines are the match on the quoted variant name, the start of the case construction, and one decode of each field's type in order. Each decode ends in `,` except the last, which ends in `)`. |
| EnumLayout.DecodeCallCount | modules/mgen/src/schema/codegen.rs:148-156 | A decoder arm for a variant with k fields holds exactly k lines starting with the decode call. |
| EnumLayout.DecodeOmitsLabels | modules/mgen/src/schema/codegen.rs:150-155 | Even for a record variant, every decode line is the bare call on the field's type, with no `name:` label in front of it. |
| EnumLayout.NewEnumDecl | modules/mgen/src/schema/init.rs:13-15 | An enum with no variants still gets the full decoder and encoder skeleton. Both switches are empty, and the decoder has only its `default` trap. |
| ModuleGen.ModuleFlattening | modules/mgen/src/schema/codegen.rs:11-34 | The walk reaches only enums and structs, never a module. If no nested module is empty, a module's text is the texts of all its declarations at any depth, in walk order, joined by the separator, as if nested modules were spliced into their parents. |
| ModuleGen.EmptySubmoduleLeavesGap | modules/mgen/src/schema/codegen.rs:11-17 | An empty module between two structs leaves two separators between them where flattening would leave one. |
| ModuleGen.EmptyModuleCode | modules/mgen/src/schema/init.rs:8-10 | A fresh module, under any name, yields the empty text. |
| ModuleGen.SingleItemCode | modules/mgen/src/schema/codegen.rs:11-34 | A module with one item yields exactly that item's text. |
| ModuleGen.ModuleCodeAppend | modules/mgen/src/schema/codegen.rs:11-17 | Splitting a module's items into two non-empty runs splits its text at exactly one separator. |
| ModuleGen.NestingTransparent | modules/mgen/src/schema/codegen.rs:11-34 | Wrapping a module in any number of single-item modules leaves its text unchanged. Module names never reach the output. |
| ModuleGen.ModuleLayout | modules/mgen/src/schema/codegen.rs:11-58 | A module's lines are each item's lines in schema order, with three empty lines between neighbours. An enum or struct contributes its declaration's lines and a nested module its own lines, with nothing around them. An empty nested module contributes no lines, so the empty lines on either side of it add up. |
| ModuleGen.TwoStructsLayout | modules/mgen/src/schema/codegen.rs:11-17 | Two structs side by side give the first declaration's lines, three empty lines, then the second declaration's lines: every struct text ends in a line break and the separator adds three more. |
| Codec.EncodeEnum | modules/mgen/src/schema/codegen.rs:101-125 | The encoder writes one token more than the value has fields: the variant name first, then each field value in order. |
| Codec.FindCase | modules/mgen/src/schema/codegen.rs:137-159 | A tag selects a variant with that name, the first one in declared order. There is no match exactly when no variant has that name. |
| Codec.ReadPayloads | modules/mgen/src/schema/codegen.rs:148-156 | Reading k payloads yields exactly k values. Otherwise it fails by running out of input, or, in the model, on a tag token where a value token was expected. |
| Codec.EnumRoundTrip | modules/mgen/src/schema/codegen.rs:118-159 | When variant names are distinct, decoding what the encoder wrote gives back the value, whatever follows in the container. |
| Codec.DecodeThenEncode | modules/mgen/src/schema/codegen.rs:118-159 | Whatever the decoder accepts is a value of the union, and encoding it gives back the tokens the decoder consumed. |
| Codec.UnknownTagFatal | modules/mgen/src/schema/codegen.rs:158-159 | A tag that names no variant ends the program through the `default` trap instead of throwing. |
| Codec.DecodeFailures | modules/mgen/src/schema/codegen.rs:133-162 | A decoding failure is fatal exactly when it is an unknown tag; running out of input and type mismatches are thrown. |
| Codec.DuplicateNamesBreakRoundTrip | modules/mgen/src/schema/codegen.rs:137-140 | In the abstract model, with two variants of the same name, the second is written with a tag that reads back as the first. Swift itself rejects such an enum (EnumLayout.DuplicateCasesRedeclared). |
| Codec.EncodedTokensMatchText | modules/mgen/src/schema/codegen.rs:118-124 | The number of tokens written equals the number of encode lines in the emitted arm for that variant. |
| Codec.DecodedTokensMatchText | modules/mgen/src/schema/codegen.rs:135-156 | The number of tokens consumed equals one tag read plus the number of decode lines in the emitted arm for the chosen variant. |
| Codec.ToJsonSucceedsIffDistinct | modules/mgen/src/schema/codegen.rs:180-198 | The dictionary literal builds exactly when field names are distinct. It then maps each field name to that field's value. Otherwise it traps on a duplicate key. |
| Codec.FromJsonFailsIffMissing | modules/mgen/src/schema/codegen.rs:200-224 | Decoding a dictionary fails exactly when some field name is missing, and then it traps on the first missing name in field order. |
| Codec.StructRoundTrip | modules/mgen/src/schema/codegen.rs:180-224 | With distinct field names, decoding what the encoder built gives back the field values. This still holds when the dictionary carries extra keys. |

## Left out

- The command-line driver (`modules/mgen/src/main.rs`) is left out. As written it calls the module's code generation and discards the resulting text, so nothing is printed or written. Option parsing, the host compiler's driver and session, and the thread and channel handoff are process plumbing over libraries outside this model.
- The schema scanner (`modules/mgen/src/schema/scan.rs`) is left out. It extracts the tree from the host compiler's documentation model, is unfinished and does not compile.
- Serialisation derives on the schema types are left out; they are library code.
- Floating-point types appear only as type tags and their names. No numeric values are modelled.
- The Swift runtime is modelled only as tokens and dictionaries. `Codable`, containers, casts and nested encoders are left out, and field values are opaque. A forced cast `as!` of a non-dictionary is not modelled.
- StructGen.StructDeclLayout: stated only for structs whose names and path segments contain no line break, since a line break inside a name splits the emitted lines differently; StructGen.StructDeclAsLines relates the text to the line table for every struct.
- StructGen.StructToJsonLayout: stated only for structs whose names and path segments contain no line break; StructGen.StructToJsonAsLines holds for every struct.
- StructGen.StructFromJsonLayout: stated only for structs whose names and path segments contain no line break; StructGen.StructFromJsonAsLines holds for every struct.
- StructGen.EmptyStructToJson: stated only for a name without a line break, for the same reason.
- EnumLayout.EnumDeclLayout: stated only for enums whose names and path segments contain no line break; EnumLayout.EnumDeclAsLines holds for every enum.
- EnumLayout.EnumMembersLayout: stated only for variants whose names and path segments contain no line break; EnumLayout.EnumMembersAsLines holds for every list of variants.
- EnumLayout.EncodeCaseLayout: stated only for a variant whose names and path segments contain no line break; EnumLayout.EncodeCaseAsLines holds for every variant.
- EnumLayout.DecodeCaseLayout: stated only for a variant whose names and path segments contain no line break; EnumLayout.DecodeCaseAsLines holds for every variant.
- EnumLayout.NewEnumDecl: stated only for a name without a line break, for the same reason.
- ModuleGen.ModuleLayout: stated only for trees whose names and path segments contain no line break; ModuleGen.ModuleCodeAsLines relates the text to the line table for every module.
- ModuleGen.TwoStructsLayout: stated only for structs whose names and path segments contain no line break, for the same reason.
- ModuleGen.ModuleFlattening: stated only when no nested module is empty. ModuleGen.EmptySubmoduleLeavesGap shows why: an empty module adds a separator of its own.
- TypeMap.ParseTypeNameRoundTrip: stated only for types whose path names contain no `<` and are neither a primitive's name nor `String`. TypeMap.QualifiedReferencesCollide shows that the mapper is not injective in general.
- TypeMap.TypeNameInjective: stated only for the same types as TypeMap.ParseTypeNameRoundTrip, for the same reason.
- Codec.EnumRoundTrip: needs distinct variant names. The generator does not check this. With a repeated name, Swift rejects the emitted declaration (EnumLayout.DuplicateCasesRedeclared), and Codec.DuplicateNamesBreakRoundTrip shows only what the abstract model does.
- Codec.EnumRoundTrip: the round trip is a fact about the abstract token model only. For a variant with named fields, the emitted `init(from:)` builds the case without the argument labels its declaration requires (EnumLayout.DecodeOmitsLabels), so that Swift does not compile and nothing about its run time is claimed.
- Codec.ReadPayloads: the model keeps tag tokens apart from value tokens and fails with a type mismatch when one stands where the other is expected. A Swift unkeyed container has no such split. `decode(<type>.self)` reads the next element by the field's type, so a `String` field reads a tag string as its value, and the tag read accepts a `String` payload.
- Codec.FindCase: names are compared character by character, while a Swift `switch` on a `String` compares by canonical equivalence. Two names that are canonically equivalent but spelled differently match in Swift and not in the model.
- Codec.ToJsonSucceedsIffDistinct: for a struct without fields, the emitted encoder writes an empty array literal cast to a dictionary type (StructGen.EmptyStructToJson), which Swift rejects. The model still builds the empty dictionary.
- Codec.StructRoundTrip: stated for the abstract dictionary model, so for a struct without fields it covers code that does not compile, for the same reason as Codec.ToJsonSucceedsIffDistinct.
- Codec.ToJsonSucceedsIffDistinct: keys are compared character by character, while Swift `String` dictionary keys compare by canonical equivalence. Two field names such as `é` written as one code point and as `e` plus a combining accent are distinct in the model, but the Swift literal traps on them as a duplicate key. A repeated field name is also declared twice (StructGen.DuplicateFieldsRedeclared), so the duplicate-key trap belongs to the abstract model only.
- Codec.FromJsonFailsIffMissing: key presence is decided character by character, while the Swift lookup `o["<name>"]` uses canonical equivalence, so a key spelled differently but canonically equal is missing in the model and found in Swift.
- Codec.StructRoundTrip: distinctness of field names is by code points, so it also covers canonically equivalent names on which the Swift literal traps.

=== FILE: codec.dfy ===
/** What the generated Swift does at run time, on abstract values.

    A tagged union is written into an unkeyed container as its variant's
    name followed by the payload values in field order, and read back by
    matching the name against the variants in declared order. A plain
    struct is written as a dictionary from field names to values and read
    back by looking each field name up. Field values are opaque: `V` stands
    for whatever a nested `encode`/`toJSON` produces. */
module Codec {
  import opened Schema
  import opened Text
  import opened EnumGen
  import opened EnumLayout
  import opened SwiftLines
  import opened Wrappers

  /** One element of an unkeyed container: a string tag or an encoded field
      value. */
  datatype Token<V> = Tag(name: string) | Payload(value: V)

  /** Why reading or writing stops. */
  datatype Failure =
    | EndOfInput
    | TypeMismatch
    | UnknownTag(tag: string)
    | MissingKey(key: string)
    | DuplicateKey(key: string)
  {
    /** A trap that ends the process, as opposed to an error that `throws`
        hands back to the caller. */
    predicate IsFatal()
    {
      UnknownTag? || MissingKey? || DuplicateKey?
    }
  }

  // ---------------------------------------------------------------------
  // Tagged unions

  /** A value of a union: which variant, and one value per field. */
  datatype EnumValue<V> = EnumValue(variant: nat, args: seq<V>)

  predicate IsValueOf<V>(e: Enum, x: EnumValue<V>)
  {
    x.variant < |e.variants| && |x.args| == |e.variants[x.variant].fields|
  }

  predicate DistinctNames(vs: seq<EnumVariant>)
  {
    forall i, j :: 0 <= i < j < |vs| ==> vs[i].name != vs[j].name
  }

  /** The tokens `encode(to:)` writes: the variant's name, then each bound
      field value in order. */
  function EncodeEnum<V>(e: Enum, x: EnumValue<V>): (ts: seq<Token<V>>)
    requires IsValueOf(e, x)
    ensures |ts| == |x.args| + 1
    ensures ts[0] == Tag(e.variants[x.variant].name)
    ensures forall j :: 0 <= j < |x.args| ==> ts[j + 1] == Payload(x.args[j])
  {
    [Tag(e.variants[x.variant].name)] + seq(|x.args|, j requires 0 <= j < |x.args| => Payload(x.args[j]))
  }

  /** The first variant carrying name `n`, as a `switch` on strings picks
      it. */
  function FindCase(vs: seq<EnumVariant>, n: string): (r: Option<nat>)
    ensures r.Some? ==> r.value < |vs| && vs[r.value].name == n
                        && forall j :: 0 <= j < r.value ==> vs[j].name != n
    ensures r.None? <==> forall j :: 0 <= j < |vs| ==> vs[j].name != n
  {
    if |vs| == 0 then None
    else if vs[0].name == n then Some(0)
    else match FindCase(vs[1..], n)
      case None => None
      case Some(i) => Some(i + 1)
  }

  /** Reads `k` field values; a missing one is the end of the input, a tag
      where a value belongs is a type mismatch. */
  function ReadPayloads<V>(ts: seq<Token<V>>, k: nat): (r: Result<seq<V>, Failure>)
    ensures r.Ok? ==> |r.value| == k && k <= |ts|
                      && forall j :: 0 <= j < k ==> ts[j] == Payload(r.value[j])
    ensures r.Err? ==> r.failure == EndOfInput || r.failure == TypeMismatch
  {
    if k == 0 then Ok([])
    else if |ts| == 0 then Err(EndOfInput)
    else if ts[0].Tag? then Err(TypeMismatch)
    else match ReadPayloads(ts[1..], k - 1)
      case Err(f) => Err(f)
      case Ok(vs) => Ok([ts[0].value] + vs)
  }

  /** What `init(from:)` does: read the tag, pick the first variant of that
      name, read its field values; an unknown tag traps. Tokens after the
      payload are left unread. */
  function DecodeEnum<V>(e: Enum, ts: seq<Token<V>>): Result<EnumValue<V>, Failure>
  {
    if |ts| == 0 then Err(EndOfInput)
    else if ts[0].Payload? then Err(TypeMismatch)
    else match FindCase(e.variants, ts[0].name)
      case None => Err(UnknownTag(ts[0].name))
      case Some(i) =>
        match ReadPayloads(ts[1..], |e.variants[i].fields|)
        case Err(f) => Err(f)
        case Ok(args) => Ok(EnumValue(i, args))
  }

  lemma {:induction false} ReadPayloadsOf<V>(ps: seq<Token<V>>, args: seq<V>, rest: seq<Token<V>>)
    requires |ps| == |args| && forall j :: 0 <= j < |ps| ==> ps[j] == Payload(args[j])
    ensures ReadPayloads(ps + rest, |args|) == Ok(args)
    decreases |args|
  {
    if |args| > 0 {
      assert (ps + rest)[1..] == ps[1..] + rest;
      ReadPayloadsOf(ps[1..], args[1..], rest);
      assert [args[0]] + args[1..] == args;
    }
  }

  /** Decoding inverts encoding when no two variants share a name, whatever
      follows the encoded tokens. */
  lemma EnumRoundTrip<V>(e: Enum, x: EnumValue<V>, rest: seq<Token<V>>)
    requires DistinctNames(e.variants) && IsValueOf(e, x)
    ensures DecodeEnum(e, EncodeEnum(e, x) + rest) == Ok(x)
  {
    var ts := EncodeEnum(e, x) + rest;
    var payload := EncodeEnum(e, x)[1..];
    assert ts[1..] == payload + rest;
    assert FindCase(e.variants, e.variants[x.variant].name) == Some(x.variant);
    ReadPayloadsOf(payload, x.args, rest);
  }

  /** Every successful decoding reads a value of the union, and encoding that
      value writes exactly the tokens decoding consumed. */
  lemma DecodeThenEncode<V>(e: Enum, ts: seq<Token<V>>)
    requires DecodeEnum(e, ts).Ok?
    ensures IsValueOf(e, DecodeEnum(e, ts).value)
    ensures var x := DecodeEnum(e, ts).value;
      |EncodeEnum(e, x)| <= |ts| && ts[..|EncodeEnum(e, x)|] == EncodeEnum(e, x)
  {
  }

  /** A tag no variant carries always traps, whatever follows it. */
  lemma UnknownTagFatal<V>(e: Enum, n: string, rest: seq<Token<V>>)
    requires forall j :: 0 <= j < |e.variants| ==> e.variants[j].name != n
    ensures DecodeEnum(e, [Tag(n)] + rest) == Err(UnknownTag(n))
    ensures DecodeEnum(e, [Tag(n)] + rest).failure.IsFatal()
  {
  }

  /** A decode failure other than an unknown tag is thrown, not a trap. */
  lemma DecodeFailures<V>(e: Enum, ts: seq<Token<V>>)
    requires DecodeEnum(e, ts).Err?
    ensures DecodeEnum(e, ts).failure.IsFatal() <==> DecodeEnum(e, ts).failure.UnknownTag?
    ensures DecodeEnum(e, ts).failure.UnknownTag? ==>
      |ts| > 0 && ts[0] == Tag(DecodeEnum(e, ts).failure.tag)
      && forall j :: 0 <= j < |e.variants| ==> e.variants[j].name != ts[0].name
  {
  }

  /** With two variants of the same name the second can be written but never
      read back: the decoder always picks the first. */
  lemma DuplicateNamesBreakRoundTrip<V>(name: string)
    ensures var e := Enum("E", [EnumVariant(name, []), EnumVariant(name, [])]);
      var second: EnumValue<V> := EnumValue(1, []);
      && IsValueOf(e, second)
      && DecodeEnum(e, EncodeEnum(e, second)) == Ok(EnumValue(0, []))
  {
    var e := Enum("E", [EnumVariant(name, []), EnumVariant(name, [])]);
    var second: EnumValue<V> := EnumValue(1, []);
    assert EncodeEnum(e, second) == [Tag(name)];
  }

  /** The encoded tokens are exactly the values the emitted encoder arm
      writes, one per `try c.encode(` line. */
  lemma EncodedTokensMatchText<V>(e: Enum, x: EnumValue<V>)
    requires IsValueOf(e, x)
    ensures |EncodeEnum(e, x)| == CountPrefixed(EncodeCaseLines(e.variants[x.variant]), EncodeCall)
  {
    EncodeCallCount(e.variants[x.variant]);
  }

  /** A successful decoding consumes the tag plus one token per decode call
      of the emitted decoder arm of the chosen variant. */
  lemma DecodedTokensMatchText<V>(e: Enum, ts: seq<Token<V>>)
    requires DecodeEnum(e, ts).Ok?
    ensures var x := DecodeEnum(e, ts).value;
      x.variant < |e.variants|
      && |EncodeEnum(e, x)| == 1 + CountPrefixed(DecodeCaseLines(e.variants[x.variant]), DecodeCall)
  {
    var x := DecodeEnum(e, ts).value;
    DecodeCallCount(e.variants[x.variant]);
  }

  // ---------------------------------------------------------------------
  // Struct dictionaries

  predicate DistinctFieldNames(fs: seq<StructField>)
  {
    forall i, j :: 0 <= i < j < |fs| ==> fs[i].name != fs[j].name
  }

  /** What `toJSON` does: a dictionary literal with one entry per field, in
      field order; a key that repeats an earlier one traps. */
  function ToJson<V>(fs: seq<StructField>, vals: seq<V>): Result<map<string, V>, Failure>
    requires |vals| == |fs|
  {
    BuildDict(fs, vals, 0, map[])
  }

  function BuildDict<V>(fs: seq<StructField>, vals: seq<V>, i: nat, acc: map<string, V>): Result<map<string, V>, Failure>
    requires |vals| == |fs|
    decreases |fs| - i
  {
    if i >= |fs| then Ok(acc)
    else if fs[i].name in acc then Err(DuplicateKey(fs[i].name))
    else BuildDict(fs, vals, i + 1, acc[fs[i].name := vals[i]])
  }

  /** What `fromJSON` does: look every field name up in order; the first
      missing one traps on the force-unwrap. Keys no field names are
      ignored. */
  function FromJson<V>(fs: seq<StructField>, o: map<string, V>): (r: Result<seq<V>, Failure>)
    ensures r.Ok? ==> |r.value| == |fs|
  {
    if |fs| == 0 then Ok([])
    else if fs[0].name !in o then Err(MissingKey(fs[0].name))
    else match FromJson(fs[1..], o)
      case Err(f) => Err(f)
      case Ok(rest) => Ok([o[fs[0].name]] + rest)
  }

  /** The dictionary built so far maps the names of fields `0..i` to their
      values and nothing else. */
  ghost predicate DictSoFar<V>(fs: seq<StructField>, vals: seq<V>, i: nat, acc: map<string, V>)
    requires |vals| == |fs| && i <= |fs|
  {
    && (forall k :: k in acc <==> exists j :: 0 <= j < i && fs[j].name == k)
    && (forall j :: 0 <= j < i ==> fs[j].name in acc && acc[fs[j].name] == vals[j])
  }

  /** Adding field `i` under a name not yet present extends the dictionary
      by that field. */
  lemma DictSoFarStep<V>(fs: seq<StructField>, vals: seq<V>, i: nat, acc: map<string, V>)
    requires |vals| == |fs| && i < |fs|
    requires DictSoFar(fs, vals, i, acc) && fs[i].name !in acc
    ensures DictSoFar(fs, vals, i + 1, acc[fs[i].name := vals[i]])
  {
    var n := fs[i].name;
    var acc' := acc[n := vals[i]];
    forall k
      ensures k in acc' <==> exists j :: 0 <= j < i + 1 && fs[j].name == k
    {
      if k == n {
        assert fs[i].name == k;
      } else if k in acc {
        var j :| 0 <= j < i && fs[j].name == k;
        assert 0 <= j < i + 1;
      }
    }
  }

  /** With distinct names, the next field's name is not yet a key. */
  lemma NextNameFresh<V>(fs: seq<StructField>, vals: seq<V>, i: nat, acc: map<string, V>)
    requires |vals| == |fs| && i < |fs|
    requires DistinctFieldNames(fs) && DictSoFar(fs, vals, i, acc)
    ensures fs[i].name !in acc
  {
    forall j | 0 <= j < i
      ensures fs[j].name != fs[i].name
    {
    }
  }

  /** Distinctness of the names seen so far survives adding a name that is
      not yet a key. */
  lemma PrefixDistinctStep<V>(fs: seq<StructField>, vals: seq<V>, i: nat, acc: map<string, V>)
    requires |vals| == |fs| && i < |fs|
    requires DictSoFar(fs, vals, i, acc) && fs[i].name !in acc
    requires forall a, b :: 0 <= a < b < i ==> fs[a].name != fs[b].name
    ensures forall a, b :: 0 <= a < b < i + 1 ==> fs[a].name != fs[b].name
  {
    forall a, b | 0 <= a < b < i + 1
      ensures fs[a].name != fs[b].name
    {
      if b == i {
        assert fs[a].name in acc;
      }
    }
  }

  lemma {:induction false} BuildDictDistinct<V>(fs: seq<StructField>, vals: seq<V>, i: nat, acc: map<string, V>)
    requires |vals| == |fs| && i <= |fs|
    requires DistinctFieldNames(fs) && DictSoFar(fs, vals, i, acc)
    ensures BuildDict(fs, vals, i, acc).Ok?
    ensures DictSoFar(fs, vals, |fs|, BuildDict(fs, vals, i, acc).value)
    decreases |fs| - i
  {
    if i < |fs| {
      NextNameFresh(fs, vals, i, acc);
      DictSoFarStep(fs, vals, i, acc);
      BuildDictDistinct(fs, vals, i + 1, acc[fs[i].name := vals[i]]);
    }
  }

  lemma {:induction false} BuildDictRepeat<V>(fs: seq<StructField>, vals: seq<V>, i: nat, acc: map<string, V>)
    requires |vals| == |fs| && i <= |fs|
    requires DictSoFar(fs, vals, i, acc)
    requires !DistinctFieldNames(fs)
    requires forall a, b :: 0 <= a < b < i ==> fs[a].name != fs[b].name
    ensures BuildDict(fs, vals, i, acc).Err?
    ensures BuildDict(fs, vals, i, acc).failure.DuplicateKey?
    decreases |fs| - i
  {
    assert i < |fs| by {
      var a, b :| 0 <= a < b < |fs| && fs[a].name == fs[b].name;
    }
    if fs[i].name !in acc {
      DictSoFarStep(fs, vals, i, acc);
      PrefixDistinctStep(fs, vals, i, acc);
      BuildDictRepeat(fs, vals, i + 1, acc[fs[i].name := vals[i]]);
    }
  }

  /** Writing a struct succeeds exactly when its field names are distinct;
      then the dictionary holds each field's value under its name and no
      other key. A repeated name traps. */
  lemma ToJsonSucceedsIffDistinct<V>(fs: seq<StructField>, vals: seq<V>)
    requires |vals| == |fs|
    ensures ToJson(fs, vals).Ok? <==> DistinctFieldNames(fs)
    ensures ToJson(fs, vals).Ok? ==>
      && (forall k :: k in ToJson(fs, vals).value <==> exists j :: 0 <= j < |fs| && fs[j].name == k)
      && (forall j :: 0 <= j < |fs| ==> ToJson(fs, vals).value[fs[j].name] == vals[j])
    ensures ToJson(fs, vals).Err? ==> ToJson(fs, vals).failure.DuplicateKey? && ToJson(fs, vals).failure.IsFatal()
  {
    if DistinctFieldNames(fs) {
      BuildDictDistinct(fs, vals, 0, map[]);
    } else {
      BuildDictRepeat(fs, vals, 0, map[]);
    }
  }

  /** Reading succeeds when every field's name is present, with the values
      in field order; other keys do not matter. */
  lemma {:induction false} FromJsonReads<V>(fs: seq<StructField>, o: map<string, V>)
    requires forall j :: 0 <= j < |fs| ==> fs[j].name in o
    ensures FromJson(fs, o).Ok?
    ensures forall j :: 0 <= j < |fs| ==> FromJson(fs, o).value[j] == o[fs[j].name]
    decreases |fs|
  {
    if |fs| > 0 {
      FromJsonReads(fs[1..], o);
    }
  }

  /** Reading fails exactly when some field's name is missing, and it then
      traps on the first such name. */
  lemma {:induction false} FromJsonFailsIffMissing<V>(fs: seq<StructField>, o: map<string, V>)
    ensures FromJson(fs, o).Err? <==> exists j :: 0 <= j < |fs| && fs[j].name !in o
    ensures FromJson(fs, o).Err? ==>
      exists j :: (0 <= j < |fs| && FromJson(fs, o).failure == MissingKey(fs[j].name) && fs[j].name !in o
                   && forall i :: 0 <= i < j ==> fs[i].name in o)
    decreases |fs|
  {
    if |fs| > 0 {
      FromJsonFailsIffMissing(fs[1..], o);
      if fs[0].name in o && FromJson(fs[1..], o).Err? {
        var j :| 0 <= j < |fs[1..]| && FromJson(fs[1..], o).failure == MissingKey(fs[1..][j].name)
          && fs[1..][j].name !in o && forall i :: 0 <= i < j ==> fs[1..][i].name in o;
        assert fs[j + 1].name !in o;
        assert forall i :: 0 <= i < j + 1 ==> fs[i].name in o by {
          forall i | 0 <= i < j + 1
            ensures fs[i].name in o
          {
            if i > 0 {
              assert fs[i] == fs[1..][i - 1];
            }
          }
        }
      }
      if exists j :: 0 <= j < |fs| && fs[j].name !in o {
        var j :| 0 <= j < |fs| && fs[j].name !in o;
        if j > 0 {
          assert fs[1..][j - 1].name !in o;
        }
      }
    }
  }

  /** A dictionary that holds every field's value under its name reads back
      as exactly those values. */
  lemma ReadBack<V>(fs: seq<StructField>, vals: seq<V>, o: map<string, V>)
    requires |vals| == |fs|
    requires forall j :: 0 <= j < |fs| ==> fs[j].name in o && o[fs[j].name] == vals[j]
    ensures FromJson(fs, o) == Ok(vals)
  {
    FromJsonReads(fs, o);
    var r := FromJson(fs, o).value;
    assert forall j :: 0 <= j < |fs| ==> r[j] == vals[j];
    assert r == vals;
  }

  /** A struct read back from the dictionary it was written to is the struct
      it was, when its field names are distinct; keys added to the
      dictionary afterwards are ignored. */
  lemma StructRoundTrip<V>(fs: seq<StructField>, vals: seq<V>, extra: map<string, V>)
    requires |vals| == |fs| && DistinctFieldNames(fs)
    requires forall j :: 0 <= j < |fs| ==> fs[j].name !in extra
    ensures ToJson(fs, vals).Ok?
    ensures FromJson(fs, ToJson(fs, vals).value) == Ok(vals)
    ensures FromJson(fs, ToJson(fs, vals).value + extra) == Ok(vals)
  {
    ToJsonSucceedsIffDistinct(fs, vals);
    var d := ToJson(fs, vals).value;
    ReadBack(fs, vals, d);
    assert forall j :: 0 <= j < |fs| ==> fs[j].name in d + extra && (d + extra)[fs[j].name] == vals[j];
    ReadBack(fs, vals, d + extra);
  }
}

=== FILE: enumgen.dfy ===
/** Swift text for a tagged union: the case declarations, an `init(from:)`
    that reads the tag and then the payload from an unkeyed container, and an
    `encode(to:)` that writes them in the same order. */
module EnumGen {
  import opened Schema
  import opened Text
  import opened TypeMap
  import opened SwiftLines

  /** The whole declaration: header, cases, decoder, encoder, closing brace. */
  function EnumDecl(e: Enum): string
  {
    "enum " + e.name + ": Codable {\n"
    + EnumMembers(e.variants)
    + EnumDecoding(e.variants)
    + EnumEncoding(e.variants)
    + "}\n"
  }

  // ---------------------------------------------------------------------
  // Case declarations

  function EnumMembers(vs: seq<EnumVariant>): string
  {
    if |vs| == 0 then "" else CaseDecl(vs[0]) + EnumMembers(vs[1..])
  }

  /** `case <name>`, followed by the parenthesised payload when there are
      fields. */
  function CaseDecl(v: EnumVariant): string
  {
    "    case " + v.name
    + (if |v.fields| > 0 then "(" else "")
    + Join(PayloadEntries(v.fields), ", ")
    + (if |v.fields| > 0 then ")" else "")
    + "\n"
  }

  function PayloadEntries(fs: seq<StructField>): (es: seq<string>)
    ensures |es| == |fs|
  {
    seq(|fs|, i requires 0 <= i < |fs| => PayloadEntry(fs[i]))
  }

  /** An unnamed field is written as its type, a named one as `name: type`. */
  function PayloadEntry(f: StructField): string
  {
    if f.name == "" then TypeName(f.ty) else f.name + ": " + TypeName(f.ty)
  }

  // ---------------------------------------------------------------------
  // Decoder

  function EnumDecoding(vs: seq<EnumVariant>): string
  {
    DecodePrologue + DecodeCases(vs) + DecodeEpilogue
  }

  /** `init(from:)` up to the switch on the tag, which it reads first. */
  const DecodePrologue: string :=
    InitLine + "\n" + DecoderContainerLine + "\n" + TagReadLine + "\n" + TagSwitchLine + "\n"

  /** Any other tag traps. */
  const DecodeEpilogue: string :=
    DefaultLine + "\n" + FailureLine + "\n" + SwitchCloseLine + "\n" + MemberCloseLine + "\n"

  function DecodeCases(vs: seq<EnumVariant>): string
  {
    if |vs| == 0 then "" else DecodeCase(vs[0]) + DecodeCases(vs[1..])
  }

  /** Matches the tag against the variant name and rebuilds the case from one
      decoded value per field; no argument labels are written. */
  function DecodeCase(v: EnumVariant): string
  {
    "        case \"" + v.name + "\":\n"
    + "            self = ." + v.name
    + (if |v.fields| > 0 then "(" else "")
    + "\n"
    + DecodeFields(v.fields, 0)
  }

  /** The decode calls from field `done` on; the last one closes the
      parenthesis, the others end with a comma. */
  function DecodeFields(fs: seq<StructField>, done: nat): string
    decreases |fs| - done
  {
    if done >= |fs| then ""
    else
      DecodeFieldLine(fs, done) + "\n" + DecodeFields(fs, done + 1)
  }

  /** The line that reads field `j`: its type, then a comma, or the closing
      parenthesis after the last field. */
  function DecodeFieldLine(fs: seq<StructField>, j: nat): string
    requires j < |fs|
  {
    DecodeCall + TypeName(fs[j].ty) + ".self)" + (if j + 1 < |fs| then "," else ")")
  }

  // ---------------------------------------------------------------------
  // Encoder

  function EnumEncoding(vs: seq<EnumVariant>): string
  {
    EncodePrologue + EncodeCases(vs) + EncodeEpilogue
  }

  const EncodePrologue: string :=
    EncodeFuncLine + "\n" + EncoderContainerLine + "\n" + SelfSwitchLine + "\n"

  const EncodeEpilogue: string := SwitchCloseLine + "\n" + MemberCloseLine + "\n"

  function EncodeCases(vs: seq<EnumVariant>): string
  {
    if |vs| == 0 then "" else EncodeCase(vs[0]) + EncodeCases(vs[1..])
  }

  /** Binds the payload to `f0 … f(k-1)`, writes the quoted variant name, then
      each bound value in order. */
  function EncodeCase(v: EnumVariant): string
  {
    EncodePattern(v) + EncodeTag(v) + EncodeFields(|v.fields|, 0)
  }

  /** The arm's pattern: the bindings in parentheses when there are fields. */
  function EncodePattern(v: EnumVariant): string
  {
    "        case ." + v.name
    + (if |v.fields| > 0 then "(" else "")
    + Join(Bindings(|v.fields|), ", ")
    + (if |v.fields| == 0 then ":\n" else "):\n")
  }

  function EncodeTag(v: EnumVariant): string
  {
    EncodeCall + "\"" + v.name + "\")" + "\n"
  }

  function Bindings(k: nat): (bs: seq<string>)
    ensures |bs| == k
  {
    seq(k, i requires 0 <= i < k => "let f" + NatToString(i))
  }

  function EncodeFields(k: nat, done: nat): string
    decreases k - done
  {
    if done >= k then ""
    else EncodeFieldLine(done) + "\n" + EncodeFields(k, done + 1)
  }

  /** The line that writes the value bound to field `j`. */
  function EncodeFieldLine(j: nat): string
  {
    EncodeCall + "f" + NatToString(j) + ")"
  }

  // ---------------------------------------------------------------------
  // Reference line tables

  /** The payload of a case declaration: empty without fields, otherwise the
      entries in parentheses. */
  function PayloadText(fs: seq<StructField>): string
  {
    if |fs| == 0 then "" else "(" + Join(PayloadEntries(fs), ", ") + ")"
  }

  /** The declaration line of one variant. */
  function CaseDeclLine(v: EnumVariant): string
  {
    "    case " + v.name + PayloadText(v.fields)
  }

  function CaseDeclLines(vs: seq<EnumVariant>): (ls: seq<string>)
    ensures |ls| == |vs|
  {
    seq(|vs|, i requires 0 <= i < |vs| => CaseDeclLine(vs[i]))
  }

  /** The pattern of an encoder arm: the variant, binding its payload to
      `f0 … f(k-1)` when it has one. */
  function EncodePatternLine(v: EnumVariant): string
  {
    var k := |v.fields|;
    "        case ." + v.name + (if k == 0 then ":" else "(" + Join(Bindings(k), ", ") + "):")
  }

  /** The write of the quoted variant name. */
  function EncodeTagLine(v: EnumVariant): string
  {
    EncodeCall + "\"" + v.name + "\")"
  }

  /** The writes of the bound values from `done` on. */
  function EncodeFieldLines(k: nat, done: nat): (ls: seq<string>)
    ensures |ls| == if done >= k then 0 else k - done
  {
    if done >= k then [] else seq(k - done, j requires 0 <= j < k - done => EncodeFieldLine(done + j))
  }

  /** The switch arm of the encoder for one variant. */
  function EncodeCaseLines(v: EnumVariant): seq<string>
  {
    [EncodePatternLine(v), EncodeTagLine(v)] + EncodeFieldLines(|v.fields|, 0)
  }

  /** The match of a decoder arm on the quoted variant name. */
  function DecodeMatchLine(v: EnumVariant): string
  {
    "        case \"" + v.name + "\":"
  }

  /** The start of the case construction, opening the argument list when
      there are fields. */
  function DecodeBuildLine(v: EnumVariant): string
  {
    "            self = ." + v.name + (if |v.fields| > 0 then "(" else "")
  }

  /** The reads of the payload values from field `done` on. */
  function DecodeFieldLines(fs: seq<StructField>, done: nat): (ls: seq<string>)
    ensures |ls| == if done >= |fs| then 0 else |fs| - done
  {
    if done >= |fs| then [] else seq(|fs| - done, j requires 0 <= j < |fs| - done => DecodeFieldLine(fs, done + j))
  }

  /** The switch arm of the decoder for one variant. */
  function DecodeCaseLines(v: EnumVariant): seq<string>
  {
    [DecodeMatchLine(v), DecodeBuildLine(v)] + DecodeFieldLines(v.fields, 0)
  }

  function EncodeCasesLines(vs: seq<EnumVariant>): seq<string>
  {
    if |vs| == 0 then [] else EncodeCaseLines(vs[0]) + EncodeCasesLines(vs[1..])
  }

  function DecodeCasesLines(vs: seq<EnumVariant>): seq<string>
  {
    if |vs| == 0 then [] else DecodeCaseLines(vs[0]) + DecodeCasesLines(vs[1..])
  }

  const DecodeHead: seq<string> := [InitLine, DecoderContainerLine, TagReadLine, TagSwitchLine]
  const DecodeFoot: seq<string> := [DefaultLine, FailureLine, SwitchCloseLine, MemberCloseLine]
  const EncodeHead: seq<string> := [EncodeFuncLine, EncoderContainerLine, SelfSwitchLine]
  const EncodeFoot: seq<string> := [SwitchCloseLine, MemberCloseLine]

  function EnumDeclLines(e: Enum): seq<string>
  {
    ["enum " + e.name + ": Codable {"]
    + CaseDeclLines(e.variants)
    + (DecodeHead + DecodeCasesLines(e.variants) + DecodeFoot)
    + (EncodeHead + EncodeCasesLines(e.variants) + EncodeFoot)
    + ["}"]
  }

  /** True when line `l` starts with `p`. */
  predicate StartsWith(l: string, p: string)
  {
    |p| <= |l| && l[..|p|] == p
  }

  /** How many lines start with `p`. */
  function CountPrefixed(ls: seq<string>, p: string): nat
  {
    if |ls| == 0 then 0
    else (if StartsWith(ls[0], p) then 1 else 0) + CountPrefixed(ls[1..], p)
  }

  /** No name in the union, and no segment of a type it mentions, holds a
      line break. */
  predicate SingleLineVariant(v: EnumVariant)
  {
    && SingleLine(v.name)
    && forall j :: 0 <= j < |v.fields| ==> SingleLine(v.fields[j].name) && SingleLinePaths(v.fields[j].ty)
  }

  predicate SingleLineEnum(e: Enum)
  {
    SingleLine(e.name) && forall i :: 0 <= i < |e.variants| ==> SingleLineVariant(e.variants[i])
  }
}

=== FILE: enumlayout.dfy ===
/** The line structure of the text emitted for a tagged union. */
module EnumLayout {
  import opened Schema
  import opened Text
  import opened TypeMap
  import opened SwiftLines
  import opened EnumGen

  // ---------------------------------------------------------------------
  // Emitted text equals its line table

  lemma EncodeFieldLinesStep(k: nat, done: nat)
    requires done < k
    ensures EncodeFieldLines(k, done) == [EncodeFieldLine(done)] + EncodeFieldLines(k, done + 1)
  {
    var a, b := EncodeFieldLines(k, done), [EncodeFieldLine(done)] + EncodeFieldLines(k, done + 1);
    assert |a| == |b|;
    forall i | 0 <= i < |a| ensures a[i] == b[i] {
      if i > 0 { assert b[i] == EncodeFieldLine(done + 1 + (i - 1)); }
    }
  }

  lemma {:induction false} EncodeFieldsAsLines(k: nat, done: nat)
    ensures EncodeFields(k, done) == UnLines(EncodeFieldLines(k, done))
    decreases k - done
  {
    if done < k {
      EncodeFieldLinesStep(k, done);
      EncodeFieldsAsLines(k, done + 1);
      UnLinesCons(EncodeFieldLine(done), EncodeFieldLines(k, done + 1));
    }
  }

  lemma DecodeFieldLinesStep(fs: seq<StructField>, done: nat)
    requires done < |fs|
    ensures DecodeFieldLines(fs, done) == [DecodeFieldLine(fs, done)] + DecodeFieldLines(fs, done + 1)
  {
    var a, b := DecodeFieldLines(fs, done), [DecodeFieldLine(fs, done)] + DecodeFieldLines(fs, done + 1);
    assert |a| == |b|;
    forall i | 0 <= i < |a| ensures a[i] == b[i] {
      if i > 0 { assert b[i] == DecodeFieldLine(fs, done + 1 + (i - 1)); }
    }
  }

  lemma {:induction false} DecodeFieldsAsLines(fs: seq<StructField>, done: nat)
    ensures DecodeFields(fs, done) == UnLines(DecodeFieldLines(fs, done))
    decreases |fs| - done
  {
    if done < |fs| {
      DecodeFieldLinesStep(fs, done);
      DecodeFieldsAsLines(fs, done + 1);
      UnLinesCons(DecodeFieldLine(fs, done), DecodeFieldLines(fs, done + 1));
    }
  }

  lemma EncodePatternText(v: EnumVariant)
    ensures EncodePattern(v) == EncodePatternLine(v) + "\n"
  {
    if |v.fields| == 0 {
      assert Join(Bindings(0), ", ") == "";
    }
  }

  /** The arm's text is its pattern line, its tag line, then the field
      writes. */
  lemma EncodeCaseText(v: EnumVariant)
    ensures EncodeCase(v) == EncodePatternLine(v) + "\n" + (EncodeTagLine(v) + "\n" + EncodeFields(|v.fields|, 0))
  {
    EncodePatternText(v);
    assert EncodeTag(v) == EncodeTagLine(v) + "\n";
  }

  lemma EncodeCaseAsLines(v: EnumVariant)
    ensures EncodeCase(v) == UnLines(EncodeCaseLines(v))
  {
    var pat, tag, rest := EncodePatternLine(v), EncodeTagLine(v), EncodeFieldLines(|v.fields|, 0);
    assert EncodeCaseLines(v) == [pat] + ([tag] + rest);
    UnLinesCons(pat, [tag] + rest);
    UnLinesCons(tag, rest);
    EncodeFieldsAsLines(|v.fields|, 0);
    EncodeCaseText(v);
  }

  lemma DecodeCaseText(v: EnumVariant)
    ensures DecodeCase(v) == DecodeMatchLine(v) + "\n" + (DecodeBuildLine(v) + "\n" + DecodeFields(v.fields, 0))
  {
    assert "        case \"" + v.name + "\":\n" == DecodeMatchLine(v) + "\n";
  }

  lemma DecodeCaseAsLines(v: EnumVariant)
    ensures DecodeCase(v) == UnLines(DecodeCaseLines(v))
  {
    var l0, l1, rest := DecodeMatchLine(v), DecodeBuildLine(v), DecodeFieldLines(v.fields, 0);
    assert DecodeCaseLines(v) == [l0] + ([l1] + rest);
    UnLinesCons(l0, [l1] + rest);
    UnLinesCons(l1, rest);
    DecodeFieldsAsLines(v.fields, 0);
    DecodeCaseText(v);
  }

  lemma {:induction false} EncodeCasesAsLines(vs: seq<EnumVariant>)
    ensures EncodeCases(vs) == UnLines(EncodeCasesLines(vs))
    decreases |vs|
  {
    if |vs| > 0 {
      EncodeCaseAsLines(vs[0]);
      EncodeCasesAsLines(vs[1..]);
      UnLinesAppend(EncodeCaseLines(vs[0]), EncodeCasesLines(vs[1..]));
    }
  }

  lemma {:induction false} DecodeCasesAsLines(vs: seq<EnumVariant>)
    ensures DecodeCases(vs) == UnLines(DecodeCasesLines(vs))
    decreases |vs|
  {
    if |vs| > 0 {
      DecodeCaseAsLines(vs[0]);
      DecodeCasesAsLines(vs[1..]);
      UnLinesAppend(DecodeCaseLines(vs[0]), DecodeCasesLines(vs[1..]));
    }
  }

  lemma CaseDeclText(v: EnumVariant)
    ensures CaseDecl(v) == CaseDeclLine(v) + "\n"
  {
    var j := Join(PayloadEntries(v.fields), ", ");
    if |v.fields| == 0 {
      assert j == "";
    } else {
      Regroup5("    case " + v.name, "(", j, ")", "\n");
    }
  }

  lemma CaseDeclLinesStep(vs: seq<EnumVariant>)
    requires |vs| > 0
    ensures CaseDeclLines(vs) == [CaseDeclLine(vs[0])] + CaseDeclLines(vs[1..])
  {
    var a, b := CaseDeclLines(vs), [CaseDeclLine(vs[0])] + CaseDeclLines(vs[1..]);
    assert |a| == |b|;
    forall i | 0 <= i < |a| ensures a[i] == b[i] {
      if i > 0 { assert vs[1..][i - 1] == vs[i]; }
    }
  }

  lemma {:induction false} EnumMembersAsLines(vs: seq<EnumVariant>)
    ensures EnumMembers(vs) == UnLines(CaseDeclLines(vs))
    decreases |vs|
  {
    if |vs| > 0 {
      CaseDeclText(vs[0]);
      CaseDeclLinesStep(vs);
      EnumMembersAsLines(vs[1..]);
      UnLinesCons(CaseDeclLine(vs[0]), CaseDeclLines(vs[1..]));
    }
  }

  lemma DecodeHeadText()
    ensures UnLines(DecodeHead) == DecodePrologue
  {
    UnLinesFour(InitLine, DecoderContainerLine, TagReadLine, TagSwitchLine);
  }

  lemma DecodeFootText()
    ensures UnLines(DecodeFoot) == DecodeEpilogue
  {
    UnLinesFour(DefaultLine, FailureLine, SwitchCloseLine, MemberCloseLine);
  }

  lemma EnumDecodingAsLines(vs: seq<EnumVariant>)
    ensures EnumDecoding(vs) == UnLines(DecodeHead + DecodeCasesLines(vs) + DecodeFoot)
  {
    DecodeCasesAsLines(vs);
    DecodeHeadText();
    DecodeFootText();
    UnLinesFrame(DecodeHead, DecodeCasesLines(vs), DecodeFoot);
  }

  lemma EncodeHeadText()
    ensures UnLines(EncodeHead) == EncodePrologue
  {
    UnLinesThree(EncodeFuncLine, EncoderContainerLine, SelfSwitchLine);
  }

  lemma EncodeFootText()
    ensures UnLines(EncodeFoot) == EncodeEpilogue
  {
    UnLinesTwo(SwitchCloseLine, MemberCloseLine);
  }

  lemma EnumEncodingAsLines(vs: seq<EnumVariant>)
    ensures EnumEncoding(vs) == UnLines(EncodeHead + EncodeCasesLines(vs) + EncodeFoot)
  {
    EncodeCasesAsLines(vs);
    EncodeHeadText();
    EncodeFootText();
    UnLinesFrame(EncodeHead, EncodeCasesLines(vs), EncodeFoot);
  }

  lemma EnumDeclText(e: Enum)
    ensures EnumDecl(e)
         == ("enum " + e.name + ": Codable {") + "\n" + EnumMembers(e.variants)
          + EnumDecoding(e.variants) + EnumEncoding(e.variants) + "}\n"
  {
    assert "enum " + e.name + ": Codable {\n" == ("enum " + e.name + ": Codable {") + "\n";
  }

  lemma EnumDeclAsLines(e: Enum)
    ensures EnumDecl(e) == UnLines(EnumDeclLines(e))
  {
    var h := "enum " + e.name + ": Codable {";
    var m := CaseDeclLines(e.variants);
    var d := DecodeHead + DecodeCasesLines(e.variants) + DecodeFoot;
    var c := EncodeHead + EncodeCasesLines(e.variants) + EncodeFoot;
    assert UnLines(EnumDeclLines(e)) == h + "\n" + UnLines(m) + UnLines(d) + UnLines(c) + "}\n" by {
      assert EnumDeclLines(e) == [h] + m + d + c + ["}"];
      UnLinesWrap(h, m, d, c, "}");
      assert "}" + "\n" == "}\n";
    }
    assert EnumDecl(e) == h + "\n" + UnLines(m) + UnLines(d) + UnLines(c) + "}\n" by {
      EnumDeclText(e);
      EnumMembersAsLines(e.variants);
      EnumDecodingAsLines(e.variants);
      EnumEncodingAsLines(e.variants);
    }
  }

  // ---------------------------------------------------------------------
  // Line tables hold single lines

  lemma FixedBlocksSingle()
    ensures AllSingleLine(DecodeHead) && AllSingleLine(DecodeFoot)
    ensures AllSingleLine(EncodeHead) && AllSingleLine(EncodeFoot)
  {
    InitLineSingle();
    DecoderContainerLineSingle();
    TagReadLineSingle();
    FailureLineSingle();
    EncodeFuncLineSingle();
    EncoderContainerLineSingle();
    ShortLinesSingle();
  }

  lemma EncodeCaseLinesSingle(v: EnumVariant)
    requires SingleLineVariant(v)
    ensures AllSingleLine(EncodeCaseLines(v))
  {
    var k := |v.fields|;
    var ls := EncodeCaseLines(v);
    EncodeCallSingle();
    forall i | 0 <= i < k
      ensures SingleLine(Bindings(k)[i]) && SingleLine(NatToString(i))
    {
      NatToStringSingleLine(i);
    }
    JoinSingleLine(Bindings(k), ", ");
    forall i | 2 <= i < |ls|
      ensures SingleLine(ls[i])
    {
      assert ls[i] == EncodeFieldLines(k, 0)[i - 2] == EncodeFieldLine(i - 2);
    }
  }

  lemma DecodeCaseLinesSingle(v: EnumVariant)
    requires SingleLineVariant(v)
    ensures AllSingleLine(DecodeCaseLines(v))
  {
    var ls := DecodeCaseLines(v);
    DecodeCallSingle();
    forall i | 2 <= i < |ls|
      ensures SingleLine(ls[i])
    {
      TypeNameSingleLine(v.fields[i - 2].ty);
      assert ls[i] == DecodeFieldLine(v.fields, i - 2);
    }
  }

  lemma CaseDeclLineSingle(v: EnumVariant)
    requires SingleLineVariant(v)
    ensures SingleLine(CaseDeclLine(v))
  {
    var es := PayloadEntries(v.fields);
    forall j | 0 <= j < |v.fields|
      ensures SingleLine(es[j])
    {
      TypeNameSingleLine(v.fields[j].ty);
    }
    JoinSingleLine(es, ", ");
  }

  lemma {:induction false} CasesLinesSingle(vs: seq<EnumVariant>)
    requires forall i :: 0 <= i < |vs| ==> SingleLineVariant(vs[i])
    ensures AllSingleLine(EncodeCasesLines(vs))
    ensures AllSingleLine(DecodeCasesLines(vs))
    ensures AllSingleLine(CaseDeclLines(vs))
    decreases |vs|
  {
    if |vs| > 0 {
      CasesLinesSingle(vs[1..]);
      EncodeCaseLinesSingle(vs[0]);
      DecodeCaseLinesSingle(vs[0]);
      AllSingleLineAppend(EncodeCaseLines(vs[0]), EncodeCasesLines(vs[1..]));
      AllSingleLineAppend(DecodeCaseLines(vs[0]), DecodeCasesLines(vs[1..]));
      forall i | 0 <= i < |vs|
        ensures SingleLine(CaseDeclLines(vs)[i])
      {
        CaseDeclLineSingle(vs[i]);
      }
    }
  }

  // ---------------------------------------------------------------------
  // Layout

  lemma EnumDeclLinesSingle(e: Enum)
    requires SingleLineEnum(e)
    ensures AllSingleLine(EnumDeclLines(e))
  {
    CasesLinesSingle(e.variants);
    FixedBlocksSingle();
    var h := "enum " + e.name + ": Codable {";
    var m := CaseDeclLines(e.variants);
    var d := DecodeHead + DecodeCasesLines(e.variants) + DecodeFoot;
    var c := EncodeHead + EncodeCasesLines(e.variants) + EncodeFoot;
    AllSingleLineAppend(DecodeHead, DecodeCasesLines(e.variants));
    AllSingleLineAppend(DecodeHead + DecodeCasesLines(e.variants), DecodeFoot);
    AllSingleLineAppend(EncodeHead, EncodeCasesLines(e.variants));
    AllSingleLineAppend(EncodeHead + EncodeCasesLines(e.variants), EncodeFoot);
    AllSingleLineAppend([h], m);
    AllSingleLineAppend([h] + m, d);
    AllSingleLineAppend([h] + m + d, c);
    AllSingleLineAppend([h] + m + d + c, ["}"]);
  }

  /** The whole declaration reads back, line by line, as its header, one
      case line per variant, the decoder, the encoder and the closing
      brace. */
  lemma EnumDeclLayout(e: Enum)
    requires SingleLineEnum(e)
    ensures Lines(EnumDecl(e)) == EnumDeclLines(e)
  {
    EnumDeclAsLines(e);
    EnumDeclLinesSingle(e);
    LinesOfUnLines(EnumDeclLines(e));
  }

  /** The case declarations read back as one line per variant, in declared
      order, each `case <name>` followed by the variant's payload. */
  lemma EnumMembersLayout(vs: seq<EnumVariant>)
    requires forall i :: 0 <= i < |vs| ==> SingleLineVariant(vs[i])
    ensures |Lines(EnumMembers(vs))| == |vs|
    ensures forall i :: 0 <= i < |vs| ==> Lines(EnumMembers(vs))[i] == "    case " + vs[i].name + PayloadText(vs[i].fields)
  {
    EnumMembersAsLines(vs);
    CasesLinesSingle(vs);
    LinesOfUnLines(CaseDeclLines(vs));
  }

  lemma EncodeFieldLinesFromZero(k: nat)
    ensures EncodeFieldLines(k, 0) == seq(k, j requires 0 <= j < k => EncodeFieldLine(j))
  {
  }

  /** The encoder arm of a variant with k fields reads back as the pattern
      binding `f0 … f(k-1)`, the write of the quoted variant name, then one
      write of each bound value in order. */
  lemma EncodeCaseLayout(v: EnumVariant)
    requires SingleLineVariant(v)
    ensures Lines(EncodeCase(v))
         == ["        case ." + v.name
               + (if |v.fields| == 0 then ":"
                  else "(" + Join(Bindings(|v.fields|), ", ") + "):"),
             EncodeCall + "\"" + v.name + "\")"]
          + seq(|v.fields|, j requires 0 <= j < |v.fields| => EncodeFieldLine(j))
  {
    EncodeCaseAsLines(v);
    EncodeCaseLinesSingle(v);
    LinesOfUnLines(EncodeCaseLines(v));
    EncodeFieldLinesFromZero(|v.fields|);
  }

  lemma DecodeFieldLinesFromZero(fs: seq<StructField>)
    ensures DecodeFieldLines(fs, 0) == seq(|fs|, j requires 0 <= j < |fs| => DecodeFieldLine(fs, j))
  {
  }

  /** The decoder arm of a variant with k fields reads back as the match on
      the quoted name, the start of the case construction, and exactly k
      decode calls of the field types in order, each but the last followed by
      a comma and the last by the closing parenthesis. */
  lemma DecodeCaseLayout(v: EnumVariant)
    requires SingleLineVariant(v)
    ensures Lines(DecodeCase(v))
         == ["        case \"" + v.name + "\":",
             "            self = ." + v.name + (if |v.fields| > 0 then "(" else "")]
          + seq(|v.fields|, j requires 0 <= j < |v.fields| => DecodeFieldLine(v.fields, j))
  {
    DecodeCaseAsLines(v);
    DecodeCaseLinesSingle(v);
    LinesOfUnLines(DecodeCaseLines(v));
    DecodeFieldLinesFromZero(v.fields);
  }

  // ---------------------------------------------------------------------
  // Counting calls

  lemma {:induction false} CountPrefixedAppend(a: seq<string>, b: seq<string>, p: string)
    ensures CountPrefixed(a + b, p) == CountPrefixed(a, p) + CountPrefixed(b, p)
    decreases |a|
  {
    if |a| > 0 {
      assert (a + b)[1..] == a[1..] + b;
      CountPrefixedAppend(a[1..], b, p);
    } else {
      assert a + b == b;
    }
  }

  lemma {:induction false} CountAllPrefixed(ls: seq<string>, p: string)
    requires forall i :: 0 <= i < |ls| ==> StartsWith(ls[i], p)
    ensures CountPrefixed(ls, p) == |ls|
    decreases |ls|
  {
    if |ls| > 0 {
      CountAllPrefixed(ls[1..], p);
    }
  }

  lemma EncodeLinesStarts(v: EnumVariant)
    ensures !StartsWith(EncodePatternLine(v), EncodeCall)
    ensures StartsWith(EncodeTagLine(v), EncodeCall)
  {
    var pat := EncodePatternLine(v);
    assert pat[8] == 'c' && EncodeCall[8] == ' ';
  }

  lemma EncodeFieldLinesStart(k: nat)
    ensures forall j :: 0 <= j < |EncodeFieldLines(k, 0)| ==> StartsWith(EncodeFieldLines(k, 0)[j], EncodeCall)
  {
    var rest := EncodeFieldLines(k, 0);
    forall j | 0 <= j < |rest|
      ensures StartsWith(rest[j], EncodeCall)
    {
      assert rest[j] == EncodeFieldLine(j);
      assert EncodeFieldLine(j) == EncodeCall + ("f" + NatToString(j) + ")");
    }
  }

  /** The encoder arm of a variant with k fields writes exactly k + 1 values:
      the tag first, then the fields. */
  lemma EncodeCallCount(v: EnumVariant)
    ensures CountPrefixed(EncodeCaseLines(v), EncodeCall) == |v.fields| + 1
  {
    var k := |v.fields|;
    var pat, tag, rest := EncodePatternLine(v), EncodeTagLine(v), EncodeFieldLines(k, 0);
    assert EncodeCaseLines(v) == [pat] + ([tag] + rest);
    EncodeLinesStarts(v);
    EncodeFieldLinesStart(k);
    CountAllPrefixed(rest, EncodeCall);
    CountPrefixedAppend([tag], rest, EncodeCall);
  }

  /** The decoder arm of a variant with k fields makes exactly k decode calls
      after the tag. */
  lemma DecodeCallCount(v: EnumVariant)
    ensures CountPrefixed(DecodeCaseLines(v), DecodeCall) == |v.fields|
  {
    var k := |v.fields|;
    var l0, l1, rest := DecodeMatchLine(v), DecodeBuildLine(v), DecodeFieldLines(v.fields, 0);
    assert DecodeCaseLines(v) == [l0] + ([l1] + rest);
    assert l0[8] == 'c' && DecodeCall[8] == ' ';
    assert l1[12] == 's' && DecodeCall[12] == ' ';
    forall j | 0 <= j < k
      ensures StartsWith(rest[j], DecodeCall)
    {
      assert rest[j] == DecodeFieldLine(v.fields, j);
      assert DecodeFieldLine(v.fields, j) == DecodeCall + (TypeName(v.fields[j].ty) + ".self)" + (if j + 1 < k then "," else ")"));
    }
    CountAllPrefixed(rest, DecodeCall);
  }

  // ---------------------------------------------------------------------
  // Payload dispatch

  /** The payload is empty exactly when the variant has no fields; otherwise
      a tuple-form variant lists its field types and a record-form variant
      lists `name: type` pairs, separated by commas, in parentheses. */
  lemma PayloadDispatch(fs: seq<StructField>)
    ensures PayloadText(fs) == "" <==> |fs| == 0
    ensures |fs| > 0 && TupleFields(fs) ==>
      PayloadText(fs) == "(" + Join(seq(|fs|, i requires 0 <= i < |fs| => TypeName(fs[i].ty)), ", ") + ")"
    ensures |fs| > 0 && RecordFields(fs) ==>
      PayloadText(fs) == "(" + Join(seq(|fs|, i requires 0 <= i < |fs| => fs[i].name + ": " + TypeName(fs[i].ty)), ", ") + ")"
  {
    if |fs| > 0 {
      assert PayloadText(fs)[0] == '(';
    }
    if TupleFields(fs) {
      assert PayloadEntries(fs) == seq(|fs|, i requires 0 <= i < |fs| => TypeName(fs[i].ty));
    }
    if RecordFields(fs) {
      assert PayloadEntries(fs) == seq(|fs|, i requires 0 <= i < |fs| => fs[i].name + ": " + TypeName(fs[i].ty));
    }
  }

  /** The decoder never writes argument labels: for a record-form variant the
      declaration labels every payload entry, while every decode line starts
      with the call itself. */
  lemma DecodeOmitsLabels(v: EnumVariant)
    requires |v.fields| > 0 && RecordFields(v.fields)
    ensures forall j :: 0 <= j < |v.fields| ==>
      PayloadEntries(v.fields)[j] == v.fields[j].name + ": " + TypeName(v.fields[j].ty)
    ensures forall j :: 2 <= j < |DecodeCaseLines(v)| ==> StartsWith(DecodeCaseLines(v)[j], DecodeCall)
  {
    var ls := DecodeCaseLines(v);
    forall j | 2 <= j < |ls|
      ensures StartsWith(ls[j], DecodeCall)
    {
      var f := v.fields[j - 2];
      assert ls[j] == DecodeFieldLine(v.fields, j - 2);
      assert DecodeFieldLine(v.fields, j - 2) == DecodeCall + (TypeName(f.ty) + ".self)" + (if j - 1 < |v.fields| then "," else ")"));
    }
  }

  /** The encoder arm binds its payload to pairwise distinct names
      `f0 … f(k-1)`. */
  lemma BindingsDistinct(k: nat)
    ensures forall i, j :: 0 <= i < j < k ==> Bindings(k)[i] != Bindings(k)[j]
  {
    var bs := Bindings(k);
    forall i, j | 0 <= i < j < k
      ensures bs[i] != bs[j]
    {
      NatToStringInjective(i, j);
      assert bs[i] == "let f" + NatToString(i) && bs[j] == "let f" + NatToString(j);
      assert bs[i][5..] == NatToString(i) && bs[j][5..] == NatToString(j);
    }
  }

  // ---------------------------------------------------------------------
  // Examples

  /** A fresh union, whatever name it is given, declares no case; its
      decoder rejects every tag and its encoder has nothing to switch over. */
  lemma NewEnumDecl(name: string)
    requires SingleLine(name)
    ensures Lines(EnumDecl(NewEnum().(name := name)))
         == ["enum " + name + ": Codable {"] + DecodeHead + DecodeFoot + EncodeHead + EncodeFoot + ["}"]
  {
    var e := NewEnum().(name := name);
    EnumDeclLayout(e);
    assert CaseDeclLines([]) == [] && DecodeCasesLines([]) == [] && EncodeCasesLines([]) == [];
    DropEmptyBlocks("enum " + name + ": Codable {", DecodeHead, DecodeFoot, EncodeHead, EncodeFoot, "}");
  }

  lemma DropEmptyBlocks<T>(h: T, a: seq<T>, b: seq<T>, c: seq<T>, d: seq<T>, t: T)
    ensures [h] + [] + (a + [] + b) + (c + [] + d) + [t] == [h] + a + b + c + d + [t]
  {
  }

  /** A one-field tuple case and a field-less case, such as `Circle(Float64)`
      beside `Square`: parentheses around the lone type, none without
      fields. */
  lemma TupleAndUnitCases(a: string, t: Type, b: string)
    ensures EnumMembers([EnumVariant(a, [StructField("", t)]), EnumVariant(b, [])])
         == "    case " + a + "(" + TypeName(t) + ")\n" + "    case " + b + "\n"
  {
    var va := EnumVariant(a, [StructField("", t)]);
    var vb := EnumVariant(b, []);
    assert Join(PayloadEntries(va.fields), ", ") == TypeName(t);
    assert CaseDecl(va) == "    case " + a + "(" + TypeName(t) + ")\n";
    assert CaseDecl(vb) == "    case " + b + "\n" by {
      assert Join(PayloadEntries(vb.fields), ", ") == "";
    }
    assert [va, vb][1..] == [vb];
    assert EnumMembers([vb]) == CaseDecl(vb) by { assert [vb][1..] == []; }
    assert EnumMembers([va, vb]) == CaseDecl(va) + CaseDecl(vb);
  }

  /** Two variants of the same name are declared by two identical case
      lines, which Swift rejects as a redeclaration. */
  lemma DuplicateCasesRedeclared(n: string)
    ensures EnumMembers([EnumVariant(n, []), EnumVariant(n, [])])
         == "    case " + n + "\n" + "    case " + n + "\n"
  {
    var v := EnumVariant(n, []);
    assert CaseDecl(v) == "    case " + n + "\n" by {
      assert Join(PayloadEntries(v.fields), ", ") == "";
    }
    assert [v, v][1..] == [v];
    assert EnumMembers([v]) == CaseDecl(v) by { assert [v][1..] == []; }
  }
}

=== FILE: modulegen.dfy ===
/** The tree walker: a module's text is its items' texts, in schema order,
    separated by `"\n\n\n"`. A nested module contributes its own text and
    nothing around it. Every enum and struct text ends in a line break, so
    three empty lines stand between two declarations unless empty modules
    lie between them; each of those adds another separator. */
module ModuleGen {
  import opened Schema
  import opened Text
  import opened StructGen
  import opened EnumGen
  import opened EnumLayout

  /** What separates two consecutive item texts. */
  const ItemSeparator: string := "\n\n\n"

  function ModuleCode(m: Module): string
  {
    Join(seq(|m.items|, k requires 0 <= k < |m.items| => ItemCode(m.items[k])), ItemSeparator)
  }

  function ItemCode(i: Item): string
  {
    match i
    case ModuleItem(sub) => ModuleCode(sub)
    case EnumItem(e) => EnumDecl(e)
    case StructItem(s) => StructDecl(s)
  }

  // ---------------------------------------------------------------------
  // Reference definitions

  /** The texts of a list of items, one per item. */
  function Codes(items: seq<Item>): (cs: seq<string>)
    ensures |cs| == |items|
  {
    seq(|items|, k requires 0 <= k < |items| => ItemCode(items[k]))
  }

  /** The declarations a module holds at any depth, in the order the walker
      reaches them. */
  function Leaves(m: Module): seq<Item>
  {
    Flatten(seq(|m.items|, k requires 0 <= k < |m.items| => ItemLeaves(m.items[k])))
  }

  function ItemLeaves(i: Item): seq<Item>
  {
    match i
    case ModuleItem(sub) => Leaves(sub)
    case _ => [i]
  }

  /** No module below the root is empty. */
  predicate Productive(m: Module)
  {
    forall k :: 0 <= k < |m.items| ==> ProductiveItem(m.items[k])
  }

  predicate ProductiveItem(i: Item)
  {
    match i
    case ModuleItem(sub) => |sub.items| > 0 && Productive(sub)
    case _ => true
  }

  /** `m` wrapped in one module per name, the first name outermost. */
  function Nest(m: Module, names: seq<string>): Module
  {
    if |names| == 0 then m else Module(names[0], [ModuleItem(Nest(m, names[1..]))])
  }

  // ---------------------------------------------------------------------
  // Lemmas

  lemma ModuleCodeIsJoin(m: Module)
    ensures ModuleCode(m) == Join(Codes(m.items), ItemSeparator)
  {
    assert seq(|m.items|, k requires 0 <= k < |m.items| => ItemCode(m.items[k])) == Codes(m.items);
  }

  /** The texts of a concatenation of item lists concatenate. */
  lemma CodesAppend(a: seq<Item>, b: seq<Item>)
    ensures Codes(a + b) == Codes(a) + Codes(b)
  {
  }

  /** Mapping items to texts commutes with flattening groups of items. */
  lemma {:induction false} CodesFlatten(gs: seq<seq<Item>>)
    ensures Codes(Flatten(gs)) == Flatten(seq(|gs|, g requires 0 <= g < |gs| => Codes(gs[g])))
    decreases |gs|
  {
    if |gs| > 0 {
      var outer := seq(|gs|, g requires 0 <= g < |gs| => Codes(gs[g]));
      var tail := seq(|gs[1..]|, g requires 0 <= g < |gs[1..]| => Codes(gs[1..][g]));
      CodesFlatten(gs[1..]);
      assert gs == [gs[0]] + gs[1..];
      FlattenAppend([gs[0]], gs[1..]);
      assert Flatten([gs[0]]) == gs[0];
      CodesAppend(gs[0], Flatten(gs[1..]));
      assert outer == [Codes(gs[0])] + tail;
      FlattenAppend([Codes(gs[0])], tail);
      assert Flatten([Codes(gs[0])]) == Codes(gs[0]);
    }
  }

  /** Every leaf is a declaration, never a module. */
  lemma {:induction false} LeavesAreDeclarations(m: Module)
    ensures forall k :: 0 <= k < |Leaves(m)| ==> !Leaves(m)[k].ModuleItem?
    decreases m, 1
  {
    var gs: seq<seq<Item>> := seq(|m.items|, k requires 0 <= k < |m.items| => ItemLeaves(m.items[k]));
    forall g | 0 <= g < |gs|
      ensures forall k :: 0 <= k < |gs[g]| ==> !gs[g][k].ModuleItem?
    {
      ItemLeavesAreDeclarations(m.items[g]);
    }
    FlattenKeeps(gs);
  }

  lemma {:induction false} ItemLeavesAreDeclarations(i: Item)
    ensures forall k :: 0 <= k < |ItemLeaves(i)| ==> !ItemLeaves(i)[k].ModuleItem?
    decreases i, 0
  {
    match i
    case ModuleItem(sub) => LeavesAreDeclarations(sub);
    case _ =>
  }

  lemma {:induction false} FlattenKeeps(gs: seq<seq<Item>>)
    requires forall g :: 0 <= g < |gs| ==> forall k :: 0 <= k < |gs[g]| ==> !gs[g][k].ModuleItem?
    ensures forall k :: 0 <= k < |Flatten(gs)| ==> !Flatten(gs)[k].ModuleItem?
    decreases |gs|
  {
    if |gs| > 0 {
      FlattenKeeps(gs[1..]);
    }
  }

  /** A productive module with at least one item holds at least one
      declaration. */
  lemma {:induction false} LeavesNonEmpty(m: Module)
    requires Productive(m) && |m.items| > 0
    ensures |Leaves(m)| > 0
    decreases m
  {
    var gs := seq(|m.items|, k requires 0 <= k < |m.items| => ItemLeaves(m.items[k]));
    match m.items[0]
    case ModuleItem(sub) =>
      LeavesNonEmpty(sub);
    case _ =>
    assert |gs[0]| > 0;
    assert gs == [gs[0]] + gs[1..];
    FlattenAppend([gs[0]], gs[1..]);
    assert Flatten([gs[0]]) == gs[0];
  }

  /** Flattening: when no nested module is empty, a module's text is the
      texts of all its declarations, at any depth, in walk order, joined by
      the separator, as if every nested module were spliced into its
      parent. */
  lemma {:induction false} ModuleFlattening(m: Module)
    requires Productive(m)
    ensures forall k :: 0 <= k < |Leaves(m)| ==> !Leaves(m)[k].ModuleItem?
    ensures ModuleCode(m) == Join(Codes(Leaves(m)), ItemSeparator)
    decreases m
  {
    LeavesAreDeclarations(m);
    var items := m.items;
    var gs := seq(|m.items|, k requires 0 <= k < |m.items| => ItemLeaves(m.items[k]));
    var ss := seq(|gs|, g requires 0 <= g < |gs| => Codes(gs[g]));
    forall g | 0 <= g < |items|
      ensures |ss[g]| > 0
      ensures Join(ss[g], ItemSeparator) == ItemCode(items[g])
    {
      match items[g]
      case ModuleItem(sub) =>
        ModuleFlattening(sub);
        LeavesNonEmpty(sub);
      case _ =>
    }
    JoinFlatten(ss, ItemSeparator);
    CodesFlatten(gs);
    assert seq(|ss|, g requires 0 <= g < |ss| => Join(ss[g], ItemSeparator)) == Codes(items);
    assert Leaves(m) == Flatten(gs);
    ModuleCodeIsJoin(m);
  }

  /** The module of the gap example: two records around an empty module. */
  function GapModule(name: string, s: Struct, t: Struct): Module
  {
    Module(name, [StructItem(s), ModuleItem(NewModule()), StructItem(t)])
  }

  lemma GapLeaves(name: string, s: Struct, t: Struct)
    ensures Leaves(GapModule(name, s, t)) == [StructItem(s), StructItem(t)]
  {
    var m := GapModule(name, s, t);
    var gs := seq(|m.items|, k requires 0 <= k < |m.items| => ItemLeaves(m.items[k]));
    assert Leaves(NewModule()) == [];
    assert gs == [[StructItem(s)], [], [StructItem(t)]];
    assert Flatten(gs[2..]) == [StructItem(t)] by { assert Flatten(gs[3..]) == []; }
    assert Flatten(gs[1..]) == [StructItem(t)];
    assert Leaves(m) == Flatten(gs);
  }

  lemma GapCode(name: string, s: Struct, t: Struct)
    ensures ModuleCode(GapModule(name, s, t)) == StructDecl(s) + ItemSeparator + ItemSeparator + StructDecl(t)
  {
    var m := GapModule(name, s, t);
    ModuleCodeIsJoin(m);
    assert ModuleCode(NewModule()) == "";
    var cs := [StructDecl(s), "", StructDecl(t)];
    assert Codes(m.items) == cs;
    assert cs[1..] == ["", StructDecl(t)] && cs[1..][1..] == [StructDecl(t)];
    assert Join(cs[1..], ItemSeparator) == "" + ItemSeparator + StructDecl(t);
  }

  /** Without productivity the flattening fails: an empty module between two
      declarations adds a separator of its own, so the two declarations end
      up two separators apart instead of one. */
  lemma EmptySubmoduleLeavesGap(name: string, s: Struct, t: Struct)
    ensures var m := GapModule(name, s, t);
      && !Productive(m)
      && Leaves(m) == [StructItem(s), StructItem(t)]
      && ModuleCode(m) == StructDecl(s) + ItemSeparator + ItemSeparator + StructDecl(t)
      && Join(Codes(Leaves(m)), ItemSeparator) == StructDecl(s) + ItemSeparator + StructDecl(t)
  {
    var m := GapModule(name, s, t);
    GapLeaves(name, s, t);
    GapCode(name, s, t);
    assert !ProductiveItem(m.items[1]);
    assert Codes([StructItem(s), StructItem(t)]) == [StructDecl(s), StructDecl(t)];
  }

  /** An empty module, such as a fresh one, yields no text at all. */
  lemma EmptyModuleCode(name: string)
    ensures ModuleCode(NewModule()) == ""
    ensures ModuleCode(NewModule().(name := name)) == ""
  {
  }

  /** A module with a single item yields that item's text with no
      separator. */
  lemma SingleItemCode(name: string, i: Item)
    ensures ModuleCode(Module(name, [i])) == ItemCode(i)
  {
  }

  /** Splitting a module's items in two splits its text at one separator. */
  lemma ModuleCodeAppend(name: string, a: seq<Item>, b: seq<Item>)
    requires |a| > 0 && |b| > 0
    ensures ModuleCode(Module(name, a + b))
         == ModuleCode(Module(name, a)) + ItemSeparator + ModuleCode(Module(name, b))
  {
    ModuleCodeIsJoin(Module(name, a + b));
    ModuleCodeIsJoin(Module(name, a));
    ModuleCodeIsJoin(Module(name, b));
    CodesAppend(a, b);
    JoinAppend(Codes(a), Codes(b), ItemSeparator);
  }

  /** A module wrapped in any number of otherwise empty modules yields the
      same text: module names never reach the output. */
  lemma {:induction false} NestingTransparent(m: Module, names: seq<string>)
    ensures ModuleCode(Nest(m, names)) == ModuleCode(m)
    decreases |names|
  {
    if |names| > 0 {
      NestingTransparent(m, names[1..]);
      SingleItemCode(names[0], ModuleItem(Nest(m, names[1..])));
    }
  }

  // ---------------------------------------------------------------------
  // Line structure

  /** The lines the separator leaves between two item texts. */
  const GapLines: seq<string> := ["", "", ""]

  /** Line table of a module: each item's lines in schema order, with three
      empty lines between neighbours; a nested module's lines are its own
      table. */
  function ModuleLines(m: Module): seq<string>
  {
    JoinBlocks(seq(|m.items|, k requires 0 <= k < |m.items| => ItemLines(m.items[k])), GapLines)
  }

  function ItemLines(i: Item): seq<string>
  {
    match i
    case ModuleItem(sub) => ModuleLines(sub)
    case EnumItem(e) => EnumDeclLines(e)
    case StructItem(s) => DeclLines(s)
  }

  /** No name in the tree, and no path segment it mentions, holds a line
      break. */
  predicate SingleLineModule(m: Module)
  {
    forall k :: 0 <= k < |m.items| ==> SingleLineItem(m.items[k])
  }

  predicate SingleLineItem(i: Item)
  {
    match i
    case ModuleItem(sub) => SingleLineModule(sub)
    case EnumItem(e) => SingleLineEnum(e)
    case StructItem(s) => SingleLineStruct(s)
  }

  lemma GapText()
    ensures UnLines(GapLines) == ItemSeparator
  {
    UnLinesThree("", "", "");
  }

  /** A module's text is its line table, each line followed by a break. */
  lemma {:induction false} ModuleCodeAsLines(m: Module)
    ensures ModuleCode(m) == UnLines(ModuleLines(m))
    decreases m, 1
  {
    var bs := seq(|m.items|, k requires 0 <= k < |m.items| => ItemLines(m.items[k]));
    var ts := seq(|m.items|, k requires 0 <= k < |m.items| => ItemCode(m.items[k]));
    forall k | 0 <= k < |bs|
      ensures ts[k] == UnLines(bs[k])
    {
      ItemCodeAsLines(m.items[k]);
    }
    GapText();
    UnLinesJoinBlocks(bs, ts, GapLines);
  }

  lemma {:induction false} ItemCodeAsLines(i: Item)
    ensures ItemCode(i) == UnLines(ItemLines(i))
    decreases i, 0
  {
    match i
    case ModuleItem(sub) => ModuleCodeAsLines(sub);
    case EnumItem(e) => EnumDeclAsLines(e);
    case StructItem(s) => StructDeclAsLines(s);
  }

  lemma {:induction false} ModuleLinesSingle(m: Module)
    requires SingleLineModule(m)
    ensures AllSingleLine(ModuleLines(m))
    decreases m, 1
  {
    var bs := seq(|m.items|, k requires 0 <= k < |m.items| => ItemLines(m.items[k]));
    forall k | 0 <= k < |bs|
      ensures AllSingleLine(bs[k])
    {
      ItemLinesSingle(m.items[k]);
    }
    JoinBlocksSingleLine(bs, GapLines);
  }

  lemma {:induction false} ItemLinesSingle(i: Item)
    requires SingleLineItem(i)
    ensures AllSingleLine(ItemLines(i))
    decreases i, 0
  {
    match i
    case ModuleItem(sub) => ModuleLinesSingle(sub);
    case EnumItem(e) => EnumDeclLinesSingle(e);
    case StructItem(s) => DeclLinesSingle(s);
  }

  /** A module's text reads back, line by line, as each item's lines in schema
      order with three empty lines between neighbours, nested modules
      included. */
  lemma ModuleLayout(m: Module)
    requires SingleLineModule(m)
    ensures Lines(ModuleCode(m)) == ModuleLines(m)
  {
    ModuleCodeAsLines(m);
    ModuleLinesSingle(m);
    LinesOfUnLines(ModuleLines(m));
  }

  /** Two records side by side: the separator leaves three empty lines, not
      two, between the first closing brace and the second header. */
  lemma TwoStructsLayout(name: string, s: Struct, t: Struct)
    requires SingleLineStruct(s) && SingleLineStruct(t)
    ensures Lines(ModuleCode(Module(name, [StructItem(s), StructItem(t)])))
         == DeclLines(s) + ["", "", ""] + DeclLines(t)
  {
    var m := Module(name, [StructItem(s), StructItem(t)]);
    ModuleLayout(m);
    var bs := seq(|m.items|, k requires 0 <= k < |m.items| => ItemLines(m.items[k]));
    assert bs == [DeclLines(s), DeclLines(t)];
    assert bs[1..] == [DeclLines(t)];
    assert JoinBlocks(bs[1..], GapLines) == DeclLines(t);
    assert ModuleLines(m) == DeclLines(s) + GapLines + DeclLines(t);
  }
}

=== FILE: schema.dfy ===
/** The schema tree: a simplified description of the records and tagged
    unions to generate Swift declarations for, independent of the host
    compiler's own syntax tree. */
module Schema {

  /** The primitive types. Floating-point types are type tags only. */
  datatype CoreType =
    | Bool
    | U8 | U16 | U32 | U64
    | I8 | I16 | I32 | I64
    | F32 | F64

  /** A possibly qualified name of another item. Nothing prevents the
      empty path. */
  datatype TypePath = TypePath(segments: seq<string>)

  /** Field types: a finite tree whose inner nodes wrap exactly one type. */
  datatype Type =
    | Core(core: CoreType)
    | String
    | Item(path: TypePath)
    | Option(inner: Type)
    | Vec(inner: Type)

  datatype StructField = StructField(name: string, ty: Type)

  datatype EnumVariant = EnumVariant(name: string, fields: seq<StructField>)

  datatype Enum = Enum(name: string, variants: seq<EnumVariant>)

  datatype Struct = Struct(name: string, fields: seq<StructField>)

  /** A module owns an ordered list of items; items nest modules to any depth. */
  datatype Module = Module(name: string, items: seq<Item>)

  datatype Item =
    | ModuleItem(sub: Module)
    | EnumItem(en: Enum)
    | StructItem(st: Struct)

  // ---------------------------------------------------------------------
  // Primitive catalogue

  /** What a primitive is: the signedness class its name encodes. */
  datatype Kind = Boolean | Unsigned | Signed | Floating

  function KindOf(c: CoreType): Kind
  {
    match c
    case Bool => Boolean
    case U8 | U16 | U32 | U64 => Unsigned
    case I8 | I16 | I32 | I64 => Signed
    case F32 | F64 => Floating
  }

  /** Bit width of a primitive; a boolean counts as one bit. */
  function Bits(c: CoreType): nat
  {
    match c
    case Bool => 1
    case U8 | I8 => 8
    case U16 | I16 => 16
    case U32 | I32 | F32 => 32
    case U64 | I64 | F64 => 64
  }

  const AllCoreTypes: seq<CoreType> := [Bool, U8, U16, U32, U64, I8, I16, I32, I64, F32, F64]

  /** There are exactly eleven primitives: one boolean, four unsigned and
      four signed integer widths, two float widths; each is determined by
      its kind and width. */
  lemma CoreTypeCatalogue(c: CoreType, d: CoreType)
    ensures c in AllCoreTypes
    ensures |AllCoreTypes| == 11
    ensures forall i, j :: 0 <= i < j < |AllCoreTypes| ==> AllCoreTypes[i] != AllCoreTypes[j]
    ensures KindOf(c) == KindOf(d) && Bits(c) == Bits(d) ==> c == d
    ensures KindOf(c) == Boolean <==> c == Bool
    ensures KindOf(c) in {Unsigned, Signed} ==> Bits(c) in {8, 16, 32, 64}
    ensures KindOf(c) == Floating ==> Bits(c) in {32, 64}
  {
    match c
    case Bool =>
    case U8 =>
    case U16 =>
    case U32 =>
    case U64 =>
    case I8 =>
    case I16 =>
    case I32 =>
    case I64 =>
    case F32 =>
    case F64 =>
  }

  // ---------------------------------------------------------------------
  // Variant well-formedness

  /** Tuple form: every field is unnamed. */
  predicate TupleFields(fs: seq<StructField>)
  {
    forall i :: 0 <= i < |fs| ==> fs[i].name == ""
  }

  /** Record form: every field is named. */
  predicate RecordFields(fs: seq<StructField>)
  {
    forall i :: 0 <= i < |fs| ==> fs[i].name != ""
  }

  /** The documented invariant of a variant: a non-empty name, and fields
      that are all unnamed or all named. */
  predicate WellFormedVariant(v: EnumVariant)
  {
    v.name != "" && (TupleFields(v.fields) || RecordFields(v.fields))
  }

  /** A well-formed variant with fields is in exactly one of the two forms;
      a variant mixing named and unnamed fields is not well-formed. */
  lemma VariantFormsExclusive(v: EnumVariant)
    requires v.name != "" && |v.fields| > 0
    ensures WellFormedVariant(v) <==> (TupleFields(v.fields) != RecordFields(v.fields))
  {
    if TupleFields(v.fields) {
      assert v.fields[0].name == "";
    } else if RecordFields(v.fields) {
      assert v.fields[0].name != "";
    }
  }

  // ---------------------------------------------------------------------
  // Empty constructors

  function NewModule(): Module
  {
    Module("", [])
  }

  function NewEnum(): Enum
  {
    Enum("", [])
  }

  function NewVariant(): EnumVariant
  {
    EnumVariant("", [])
  }

  function NewStruct(): Struct
  {
    Struct("", [])
  }

  /** A fresh variant breaks the non-empty-name invariant until it is named;
      naming it is all it takes, since a field-less variant is in both forms. */
  lemma NewVariantNeedsName(name: string)
    ensures !WellFormedVariant(NewVariant())
    ensures WellFormedVariant(NewVariant().(name := name)) <==> name != ""
  {
  }

  // ---------------------------------------------------------------------
  // Size of the tree

  /** Nesting depth of a type: the number of wrappers around its base. */
  function Depth(t: Type): nat
  {
    match t
    case Option(inner) => 1 + Depth(inner)
    case Vec(inner) => 1 + Depth(inner)
    case _ => 0
  }

  /** The type under all wrappers. */
  function Base(t: Type): (b: Type)
    ensures !b.Option? && !b.Vec?
  {
    match t
    case Option(inner) => Base(inner)
    case Vec(inner) => Base(inner)
    case _ => t
  }
}

=== FILE: structgen.dfy ===
/** Swift text for a record: its declaration, and the dictionary encoder and
    decoder functions that exist beside it but are never emitted. */
module StructGen {
  import opened Schema
  import opened Text
  import opened TypeMap

  /** The record declaration: header, one stored property per field, closing
      brace. The dictionary codec is not part of it. */
  function StructDecl(s: Struct): string
  {
    "struct " + s.name + ": Codable {\n" + StructMembers(s.fields) + "}\n"
  }

  /** One `var <name>: <type>` line per field, in declared order. */
  function StructMembers(fs: seq<StructField>): string
  {
    if |fs| == 0 then ""
    else FieldDeclLine(fs[0]) + "\n" + StructMembers(fs[1..])
  }

  /** The stored property of one field. */
  function FieldDeclLine(f: StructField): string
  {
    "    var " + f.name + ": " + TypeName(f.ty)
  }

  /** Two fields of the same name are declared by two stored properties of
      that name, which Swift rejects as a redeclaration. */
  lemma DuplicateFieldsRedeclared(n: string, t: Type, u: Type)
    ensures StructMembers([StructField(n, t), StructField(n, u)])
         == "    var " + n + ": " + TypeName(t) + "\n" + "    var " + n + ": " + TypeName(u) + "\n"
  {
    var fs := [StructField(n, t), StructField(n, u)];
    assert fs[1..] == [StructField(n, u)];
    assert StructMembers(fs[1..]) == FieldDeclLine(fs[1]) + "\n" by { assert fs[1..][1..] == []; }
  }

  /** The dictionary encoder: a dictionary literal with one entry per field,
      keyed by the field name. */
  function StructToJson(s: Struct): string
  {
    "func toJSON(_ v: " + s.name + ") -> Any {\n"
    + "    return [\n"
    + ToJsonEntries(s.fields)
    + "    ] as [String: Any]\n"
    + "}\n"
  }

  function ToJsonEntries(fs: seq<StructField>): string
  {
    if |fs| == 0 then ""
    else ToJsonEntryLine(fs[0]) + "\n" + ToJsonEntries(fs[1..])
  }

  /** The dictionary entry of one field: its quoted name, then its encoded
      value. */
  function ToJsonEntryLine(f: StructField): string
  {
    "            \"" + f.name + "\": toJSON(v." + f.name + "),"
  }

  /** The dictionary decoder: looks up every field's key, force-unwrapping the
      lookup, and builds the record from the values. */
  function StructFromJson(s: Struct): string
  {
    "func fromJSON(_ j: Any) -> " + s.name + " {\n"
    + "    let o = j as! [String: Any]\n"
    + "    let r = " + s.name + "(\n"
    + Join(FromJsonArgs(s.fields), ",\n")
    + ")\n"
    + "    return r\n"
    + "}\n"
  }

  function FromJsonArgs(fs: seq<StructField>): seq<string>
  {
    seq(|fs|, i requires 0 <= i < |fs| => FromJsonArg(fs[i]))
  }

  function FromJsonArg(f: StructField): string
  {
    "        " + f.name + ": fromJSON(o[\"" + f.name + "\"]!)"
  }

  // ---------------------------------------------------------------------
  // Line structure

  /** No name in the record, and no segment of a type it mentions, holds a
      line break. */
  predicate SingleLineStruct(s: Struct)
  {
    && SingleLine(s.name)
    && forall i :: 0 <= i < |s.fields| ==> SingleLine(s.fields[i].name) && SingleLinePaths(s.fields[i].ty)
  }

  function FieldDeclLines(fs: seq<StructField>): (ls: seq<string>)
    ensures |ls| == |fs|
  {
    seq(|fs|, i requires 0 <= i < |fs| => FieldDeclLine(fs[i]))
  }

  function ToJsonEntryLines(fs: seq<StructField>): (ls: seq<string>)
    ensures |ls| == |fs|
  {
    seq(|fs|, i requires 0 <= i < |fs| => ToJsonEntryLine(fs[i]))
  }

  /** The decoder's argument lines: each argument followed by a comma, the
      last by the closing parenthesis. */
  function FromJsonArgLines(fs: seq<StructField>): (ls: seq<string>)
    ensures |ls| == |fs|
  {
    Delimit(FromJsonArgs(fs), ",", ")")
  }

  lemma FieldDeclLinesStep(fs: seq<StructField>)
    requires |fs| > 0
    ensures FieldDeclLines(fs) == [FieldDeclLine(fs[0])] + FieldDeclLines(fs[1..])
  {
    var a, b := FieldDeclLines(fs), [FieldDeclLine(fs[0])] + FieldDeclLines(fs[1..]);
    assert |a| == |b|;
    forall i | 0 <= i < |a| ensures a[i] == b[i] {
      if i > 0 { assert fs[1..][i - 1] == fs[i]; }
    }
  }

  lemma {:induction false} StructMembersAsLines(fs: seq<StructField>)
    ensures StructMembers(fs) == UnLines(FieldDeclLines(fs))
    decreases |fs|
  {
    if |fs| > 0 {
      FieldDeclLinesStep(fs);
      StructMembersAsLines(fs[1..]);
      UnLinesCons(FieldDeclLine(fs[0]), FieldDeclLines(fs[1..]));
    }
  }

  lemma ToJsonEntryLinesStep(fs: seq<StructField>)
    requires |fs| > 0
    ensures ToJsonEntryLines(fs) == [ToJsonEntryLine(fs[0])] + ToJsonEntryLines(fs[1..])
  {
    var a, b := ToJsonEntryLines(fs), [ToJsonEntryLine(fs[0])] + ToJsonEntryLines(fs[1..]);
    assert |a| == |b|;
    forall i | 0 <= i < |a| ensures a[i] == b[i] {
      if i > 0 { assert fs[1..][i - 1] == fs[i]; }
    }
  }

  lemma {:induction false} ToJsonEntriesAsLines(fs: seq<StructField>)
    ensures ToJsonEntries(fs) == UnLines(ToJsonEntryLines(fs))
    decreases |fs|
  {
    if |fs| > 0 {
      ToJsonEntryLinesStep(fs);
      ToJsonEntriesAsLines(fs[1..]);
      UnLinesCons(ToJsonEntryLine(fs[0]), ToJsonEntryLines(fs[1..]));
    }
  }

  lemma FromJsonArgsAsLines(fs: seq<StructField>)
    requires |fs| > 0
    ensures Join(FromJsonArgs(fs), ",\n") + ")\n" == UnLines(FromJsonArgLines(fs))
  {
    var parts := FromJsonArgs(fs);
    JoinAsLines(parts, ",", ")");
    assert "," + "\n" == ",\n";
    assert Join(parts, ",\n") + ")" + "\n" == Join(parts, ",\n") + ")\n";
  }

  lemma FieldTypesSingle(s: Struct)
    requires SingleLineStruct(s)
    ensures forall i :: 0 <= i < |s.fields| ==> SingleLine(TypeName(s.fields[i].ty))
  {
    forall i | 0 <= i < |s.fields|
      ensures SingleLine(TypeName(s.fields[i].ty))
    {
      TypeNameSingleLine(s.fields[i].ty);
    }
  }

  lemma FieldLinesSingle(s: Struct)
    requires SingleLineStruct(s)
    ensures AllSingleLine(FieldDeclLines(s.fields))
  {
    FieldTypesSingle(s);
    var ls := FieldDeclLines(s.fields);
    forall i | 0 <= i < |ls|
      ensures SingleLine(ls[i])
    {
      assert ls[i] == FieldDeclLine(s.fields[i]);
    }
  }

  lemma EntryLinesSingle(s: Struct)
    requires SingleLineStruct(s)
    ensures AllSingleLine(ToJsonEntryLines(s.fields))
  {
    var ls := ToJsonEntryLines(s.fields);
    forall i | 0 <= i < |ls|
      ensures SingleLine(ls[i])
    {
      assert ls[i] == ToJsonEntryLine(s.fields[i]);
    }
  }

  lemma ArgLinesSingle(s: Struct)
    requires SingleLineStruct(s)
    ensures AllSingleLine(FromJsonArgLines(s.fields))
  {
    var ls := FromJsonArgLines(s.fields);
    forall i | 0 <= i < |ls|
      ensures SingleLine(ls[i])
    {
      assert FromJsonArgs(s.fields)[i] == FromJsonArg(s.fields[i]);
    }
  }

  lemma LetLineSingle()
    ensures SingleLine("    let o = j as! [String: Any]")
  {
    var a, b, c := "    let o", " = j as! ", "[String: Any]";
    assert SingleLine(a) && SingleLine(b) && SingleLine(c);
    assert a + b + c == "    let o = j as! [String: Any]";
  }

  // ---------------------------------------------------------------------
  // The declaration

  function DeclLines(s: Struct): seq<string>
  {
    ["struct " + s.name + ": Codable {"] + FieldDeclLines(s.fields) + ["}"]
  }

  lemma DeclHead(s: Struct)
    ensures UnLines(["struct " + s.name + ": Codable {"]) == "struct " + s.name + ": Codable {\n"
  {
    UnLinesOne("struct " + s.name + ": Codable {");
  }

  lemma StructDeclAsLines(s: Struct)
    ensures StructDecl(s) == UnLines(DeclLines(s))
  {
    var h := ["struct " + s.name + ": Codable {"];
    UnLinesFrame(h, FieldDeclLines(s.fields), ["}"]);
    DeclHead(s);
    UnLinesOne("}");
    StructMembersAsLines(s.fields);
  }

  /** The declaration reads back, line by line, as the header, one stored
      property per field in declared order, and the closing brace. */
  lemma StructDeclLayout(s: Struct)
    requires SingleLineStruct(s)
    ensures Lines(StructDecl(s))
         == ["struct " + s.name + ": Codable {"] + FieldDeclLines(s.fields) + ["}"]
  {
    StructDeclAsLines(s);
    DeclLinesSingle(s);
    LinesOfUnLines(DeclLines(s));
  }

  lemma DeclLinesSingle(s: Struct)
    requires SingleLineStruct(s)
    ensures AllSingleLine(DeclLines(s))
  {
    FieldLinesSingle(s);
  }

  // ---------------------------------------------------------------------
  // The dictionary encoder

  function ToJsonLines(s: Struct): seq<string>
  {
    ["func toJSON(_ v: " + s.name + ") -> Any {", "    return ["]
    + ToJsonEntryLines(s.fields)
    + ["    ] as [String: Any]", "}"]
  }

  lemma ToJsonHead(s: Struct)
    ensures UnLines(["func toJSON(_ v: " + s.name + ") -> Any {", "    return ["])
         == "func toJSON(_ v: " + s.name + ") -> Any {\n" + "    return [\n"
  {
    UnLinesTwo("func toJSON(_ v: " + s.name + ") -> Any {", "    return [");
  }

  lemma ToJsonFoot()
    ensures UnLines(["    ] as [String: Any]", "}"]) == "    ] as [String: Any]\n" + "}\n"
  {
    UnLinesTwo("    ] as [String: Any]", "}");
  }

  lemma StructToJsonAsLines(s: Struct)
    ensures StructToJson(s) == UnLines(ToJsonLines(s))
  {
    var h := ["func toJSON(_ v: " + s.name + ") -> Any {", "    return ["];
    var f := ["    ] as [String: Any]", "}"];
    UnLinesFrame(h, ToJsonEntryLines(s.fields), f);
    ToJsonHead(s);
    ToJsonFoot();
    ToJsonEntriesAsLines(s.fields);
  }

  /** The encoder reads back as its header, exactly one `"<name>":
      toJSON(v.<name>),` entry per field in declared order, and its footer. */
  lemma StructToJsonLayout(s: Struct)
    requires SingleLineStruct(s)
    ensures Lines(StructToJson(s))
         == ["func toJSON(_ v: " + s.name + ") -> Any {", "    return ["]
          + ToJsonEntryLines(s.fields)
          + ["    ] as [String: Any]", "}"]
  {
    StructToJsonAsLines(s);
    assert AllSingleLine(ToJsonLines(s)) by {
      EntryLinesSingle(s);
    }
    LinesOfUnLines(ToJsonLines(s));
  }

  /** A record without fields gets `[` and `] as [String: Any]` with no entry
      between them: an empty array literal cast to a dictionary type, where
      an empty dictionary literal is written `[:]`. */
  lemma EmptyStructToJson(name: string)
    requires SingleLine(name)
    ensures Lines(StructToJson(Struct(name, [])))
         == ["func toJSON(_ v: " + name + ") -> Any {", "    return [", "    ] as [String: Any]", "}"]
  {
    StructToJsonLayout(Struct(name, []));
    assert ToJsonEntryLines([]) == [];
  }

  // ---------------------------------------------------------------------
  // The dictionary decoder

  /** The text between the third header line and the footer: the argument
      lines, or the lone closing parenthesis. */
  function FromJsonBody(fs: seq<StructField>): seq<string>
  {
    if |fs| == 0 then [")"] else FromJsonArgLines(fs)
  }

  function FromJsonLines(s: Struct): seq<string>
  {
    ["func fromJSON(_ j: Any) -> " + s.name + " {", "    let o = j as! [String: Any]", "    let r = " + s.name + "("]
    + FromJsonBody(s.fields)
    + ["    return r", "}"]
  }

  lemma FromJsonHead(s: Struct)
    ensures UnLines(["func fromJSON(_ j: Any) -> " + s.name + " {", "    let o = j as! [String: Any]", "    let r = " + s.name + "("])
         == "func fromJSON(_ j: Any) -> " + s.name + " {\n" + "    let o = j as! [String: Any]\n" + "    let r = " + s.name + "(\n"
  {
    UnLinesThree("func fromJSON(_ j: Any) -> " + s.name + " {", "    let o = j as! [String: Any]", "    let r = " + s.name + "(");
  }

  lemma FromJsonFoot()
    ensures UnLines(["    return r", "}"]) == "    return r\n" + "}\n"
  {
    UnLinesTwo("    return r", "}");
  }

  lemma FromJsonBodyText(fs: seq<StructField>)
    ensures UnLines(FromJsonBody(fs)) == Join(FromJsonArgs(fs), ",\n") + ")\n"
  {
    if |fs| == 0 {
      UnLinesOne(")");
    } else {
      FromJsonArgsAsLines(fs);
    }
  }

  lemma StructFromJsonAsLines(s: Struct)
    ensures StructFromJson(s) == UnLines(FromJsonLines(s))
  {
    var h := ["func fromJSON(_ j: Any) -> " + s.name + " {", "    let o = j as! [String: Any]", "    let r = " + s.name + "("];
    var f := ["    return r", "}"];
    UnLinesFrame(h, FromJsonBody(s.fields), f);
    FromJsonHead(s);
    FromJsonFoot();
    FromJsonBodyText(s.fields);
  }

  lemma FromJsonLinesSingle(s: Struct)
    requires SingleLineStruct(s)
    ensures AllSingleLine(FromJsonLines(s))
  {
    ArgLinesSingle(s);
    LetLineSingle();
  }

  /** The decoder reads back as its header, one `<name>: fromJSON(o["<name>"]!)`
      line per field in declared order (a comma after every one but the last,
      the closing parenthesis after the last, or alone when there are no
      fields), and its footer. */
  lemma StructFromJsonLayout(s: Struct)
    requires SingleLineStruct(s)
    ensures Lines(StructFromJson(s))
         == ["func fromJSON(_ j: Any) -> " + s.name + " {", "    let o = j as! [String: Any]", "    let r = " + s.name + "("]
          + (if |s.fields| == 0 then [")"] else FromJsonArgLines(s.fields))
          + ["    return r", "}"]
  {
    StructFromJsonAsLines(s);
    FromJsonLinesSingle(s);
    LinesOfUnLines(FromJsonLines(s));
  }

  /** A fresh record declares nothing between its braces. */
  lemma NewStructDecl()
    ensures StructDecl(NewStruct()) == "struct : Codable {\n}\n"
  {
  }
}

=== FILE: swiftlines.dfy ===
/** The fixed lines of the Swift text emitted for a tagged union, each named
    once, and the fact that none of them holds a line break. The longer
    lines are written as short literal pieces so that each piece can be
    checked for line breaks on its own. */
module SwiftLines {
  import opened Text

  /** Opening of the decoding initialiser and its reads up to the switch. */
  const InitLine: string := "    init(from " + "decoder: Decoder" + ") throws {"
  const DecoderContainerLine: string := "        var dec" + " = try decoder" + ".unkeyed" + "Container()"
  const TagReadLine: string := "        let n = " + "try dec.decode" + "(String.self)"
  const TagSwitchLine: string := "        switch n {"

  /** The arm that traps on an unknown tag. */
  const DefaultLine: string := "        default:"
  const FailureLine: string := "            " + "preconditionFailure()"

  /** Opening of the encoding method up to the switch. */
  const EncodeFuncLine: string := "    func encode" + "(to encoder: " + "Encoder) throws {"
  const EncoderContainerLine: string := "        var c = " + "encoder.unkeyed" + "Container()"
  const SelfSwitchLine: string := "        switch self {"

  /** Closing braces of a switch and of a member. */
  const SwitchCloseLine: string := "        }"
  const MemberCloseLine: string := "    }"

  /** The start of every line that writes a value, and of every line that
      reads a payload value. */
  const EncodeCall: string := "            " + "try c.encode("
  const DecodeCall: string := "                " + "try dec.decode("

  lemma InitLineSingle()
    ensures SingleLine(InitLine)
  {
    SingleLineAppend("    init(from ", "decoder: Decoder");
    SingleLineAppend("    init(from " + "decoder: Decoder", ") throws {");
  }

  lemma DecoderContainerLineSingle()
    ensures SingleLine(DecoderContainerLine)
  {
    SingleLineAppend("        var dec", " = try decoder");
    SingleLineAppend("        var dec" + " = try decoder", ".unkeyed");
    SingleLineAppend("        var dec" + " = try decoder" + ".unkeyed", "Container()");
  }

  lemma TagReadLineSingle()
    ensures SingleLine(TagReadLine)
  {
    SingleLineAppend("        let n = ", "try dec.decode");
    SingleLineAppend("        let n = " + "try dec.decode", "(String.self)");
  }

  lemma FailureLineSingle()
    ensures SingleLine(FailureLine)
  {
    SingleLineAppend("            ", "preconditionFailure()");
  }

  lemma EncodeFuncLineSingle()
    ensures SingleLine(EncodeFuncLine)
  {
    SingleLineAppend("    func encode", "(to encoder: ");
    SingleLineAppend("    func encode" + "(to encoder: ", "Encoder) throws {");
  }

  lemma EncoderContainerLineSingle()
    ensures SingleLine(EncoderContainerLine)
  {
    SingleLineAppend("        var c = ", "encoder.unkeyed");
    SingleLineAppend("        var c = " + "encoder.unkeyed", "Container()");
  }

  lemma EncodeCallSingle()
    ensures SingleLine(EncodeCall)
  {
    SingleLineAppend("            ", "try c.encode(");
  }

  lemma DecodeCallSingle()
    ensures SingleLine(DecodeCall)
  {
    SingleLineAppend("                ", "try dec.decode(");
  }

  /** The short lines need no splitting. */
  lemma ShortLinesSingle()
    ensures SingleLine(TagSwitchLine) && SingleLine(DefaultLine) && SingleLine(SelfSwitchLine)
    ensures SingleLine(SwitchCloseLine) && SingleLine(MemberCloseLine)
  {
  }
}

=== FILE: text.dfy ===
/** Text utilities shared by the emitters: joining with a separator, the line
    structure of emitted text, and decimal rendering of indices. */
module Text {

  /** True when `s` holds no line break. */
  predicate SingleLine(s: string)
  {
    '\n' !in s
  }

  lemma SingleLineAppend(a: string, b: string)
    requires SingleLine(a) && SingleLine(b)
    ensures SingleLine(a + b)
  {
  }

  predicate AllSingleLine(ls: seq<string>)
  {
    forall i :: 0 <= i < |ls| ==> SingleLine(ls[i])
  }

  /** The parts with `sep` between neighbours: the empty list gives "",
      one part gives that part unchanged (the behaviour of a slice join). */
  function Join(parts: seq<string>, sep: string): string
  {
    if |parts| == 0 then ""
    else if |parts| == 1 then parts[0]
    else parts[0] + sep + Join(parts[1..], sep)
  }

  /** Concatenation of a list of lists, in order. */
  function Flatten<T>(ss: seq<seq<T>>): seq<T>
  {
    if |ss| == 0 then [] else ss[0] + Flatten(ss[1..])
  }

  /** Blocks of lines with the lines `sep` between neighbouring blocks: the
      line-level counterpart of `Join`. */
  function JoinBlocks(bs: seq<seq<string>>, sep: seq<string>): seq<string>
  {
    if |bs| == 0 then []
    else if |bs| == 1 then bs[0]
    else bs[0] + sep + JoinBlocks(bs[1..], sep)
  }

  /** Every line followed by a line break: the shape of text that is built
      line by line. */
  function UnLines(ls: seq<string>): string
  {
    if |ls| == 0 then "" else ls[0] + "\n" + UnLines(ls[1..])
  }

  /** Position of the first line break, or `|s|` when there is none. */
  function NewlineIndex(s: string): (i: nat)
    ensures i <= |s|
    ensures i < |s| ==> s[i] == '\n'
    ensures forall j :: 0 <= j < i ==> s[j] != '\n'
  {
    if |s| == 0 then 0
    else if s[0] == '\n' then 0
    else 1 + NewlineIndex(s[1..])
  }

  /** Splits text at its line breaks. A final line break does not start a
      further (empty) line; text after the last line break is a last line. */
  function Lines(s: string): seq<string>
    decreases |s|
  {
    if |s| == 0 then []
    else
      var i := NewlineIndex(s);
      if i == |s| then [s] else [s[..i]] + Lines(s[i + 1..])
  }

  /** Decimal rendering of a natural number, without leading zeros. */
  function NatToString(n: nat): (s: string)
    ensures |s| > 0
    ensures forall i :: 0 <= i < |s| ==> '0' <= s[i] <= '9'
    ensures n >= 10 ==> s[0] != '0'
  {
    if n < 10 then [Digit(n)] else NatToString(n / 10) + [Digit(n % 10)]
  }

  function Digit(d: nat): (c: char)
    requires d < 10
  {
    ['0', '1', '2', '3', '4', '5', '6', '7', '8', '9'][d]
  }

  /** The number a string of decimal digits denotes. */
  function DecimalValue(s: string): nat
  {
    if |s| == 0 then 0
    else DecimalValue(s[..|s| - 1]) * 10 + DigitValue(s[|s| - 1])
  }

  function DigitValue(c: char): nat
  {
    if '0' <= c <= '9' then (c as int - '0' as int) as nat else 0
  }

  // ---------------------------------------------------------------------
  // Lemmas

  lemma {:induction false} JoinAppend(a: seq<string>, b: seq<string>, sep: string)
    requires |a| > 0 && |b| > 0
    ensures Join(a + b, sep) == Join(a, sep) + sep + Join(b, sep)
    decreases |a|
  {
    if |a| == 1 {
      assert a + b == [a[0]] + b;
    } else {
      assert (a + b)[1..] == a[1..] + b;
      JoinAppend(a[1..], b, sep);
    }
  }

  lemma {:induction false} JoinSingleLine(parts: seq<string>, sep: string)
    requires AllSingleLine(parts) && SingleLine(sep)
    ensures SingleLine(Join(parts, sep))
    decreases |parts|
  {
    if |parts| > 1 {
      JoinSingleLine(parts[1..], sep);
    }
  }

  lemma {:induction false} FlattenAppend<T>(a: seq<seq<T>>, b: seq<seq<T>>)
    ensures Flatten(a + b) == Flatten(a) + Flatten(b)
    decreases |a|
  {
    if |a| > 0 {
      assert (a + b)[1..] == a[1..] + b;
      FlattenAppend(a[1..], b);
    } else {
      assert a + b == b;
    }
  }

  lemma {:induction false} UnLinesAppend(a: seq<string>, b: seq<string>)
    ensures UnLines(a + b) == UnLines(a) + UnLines(b)
    decreases |a|
  {
    if |a| > 0 {
      assert (a + b)[1..] == a[1..] + b;
      UnLinesAppend(a[1..], b);
    } else {
      assert a + b == b;
    }
  }

  lemma UnLinesCons(l: string, rest: seq<string>)
    ensures UnLines([l] + rest) == l + "\n" + UnLines(rest)
  {
    assert ([l] + rest)[1..] == rest;
  }

  lemma UnLinesOne(a: string)
    ensures UnLines([a]) == a + "\n"
  {
    UnLinesCons(a, []);
  }

  lemma UnLinesTwo(a: string, b: string)
    ensures UnLines([a, b]) == a + "\n" + b + "\n"
  {
    assert [a, b] == [a] + [b];
    UnLinesCons(a, [b]);
    UnLinesOne(b);
  }

  lemma UnLinesThree(a: string, b: string, c: string)
    ensures UnLines([a, b, c]) == a + "\n" + b + "\n" + c + "\n"
  {
    assert [a, b, c] == [a] + [b, c];
    UnLinesCons(a, [b, c]);
    UnLinesTwo(b, c);
  }

  lemma UnLinesFour(a: string, b: string, c: string, d: string)
    ensures UnLines([a, b, c, d]) == a + "\n" + b + "\n" + c + "\n" + d + "\n"
  {
    assert [a, b, c, d] == [a] + [b, c, d];
    UnLinesCons(a, [b, c, d]);
    UnLinesThree(b, c, d);
  }

  lemma UnLinesFrame(pre: seq<string>, body: seq<string>, post: seq<string>)
    ensures UnLines(pre + body + post) == UnLines(pre) + UnLines(body) + UnLines(post)
  {
    UnLinesAppend(pre + body, post);
    UnLinesAppend(pre, body);
  }

  /** A header line, three blocks of lines and a closing line. */
  lemma UnLinesWrap(h: string, a: seq<string>, b: seq<string>, c: seq<string>, t: string)
    ensures UnLines([h] + a + b + c + [t]) == h + "\n" + UnLines(a) + UnLines(b) + UnLines(c) + (t + "\n")
  {
    UnLinesAppend([h] + a + b + c, [t]);
    UnLinesAppend([h] + a + b, c);
    UnLinesAppend([h] + a, b);
    UnLinesAppend([h], a);
    UnLinesOne(h);
    UnLinesOne(t);
  }

  lemma Regroup5(a: string, b: string, c: string, d: string, e: string)
    ensures a + b + c + d + e == a + (b + (c + (d + e)))
  {
  }

  lemma AllSingleLineAppend(a: seq<string>, b: seq<string>)
    requires AllSingleLine(a) && AllSingleLine(b)
    ensures AllSingleLine(a + b)
  {
  }

  lemma {:induction false} AllSingleLineFlatten(ss: seq<seq<string>>)
    requires forall i :: 0 <= i < |ss| ==> AllSingleLine(ss[i])
    ensures AllSingleLine(Flatten(ss))
    decreases |ss|
  {
    if |ss| > 0 {
      AllSingleLineFlatten(ss[1..]);
      var f := Flatten(ss);
      assert f == ss[0] + Flatten(ss[1..]);
      forall i | 0 <= i < |f|
        ensures SingleLine(f[i])
      {
        if i >= |ss[0]| {
          assert f[i] == Flatten(ss[1..])[i - |ss[0]|];
        }
      }
    }
  }

  /** Splitting recovers a single line in front of a line break. */
  lemma LinesCons(l: string, rest: string)
    requires SingleLine(l)
    ensures Lines(l + "\n" + rest) == [l] + Lines(rest)
  {
    var s := l + "\n" + rest;
    var i := NewlineIndex(s);
    assert s[|l|] == '\n';
    assert forall j :: 0 <= j < |l| ==> s[j] == l[j] && l[j] in l;
    assert i == |l|;
    assert s[..i] == l;
    assert s[i + 1..] == rest;
  }

  /** Splitting text built line by line gives back exactly its lines. */
  lemma {:induction false} LinesOfUnLines(ls: seq<string>)
    requires AllSingleLine(ls)
    ensures Lines(UnLines(ls)) == ls
    decreases |ls|
  {
    if |ls| > 0 {
      LinesCons(ls[0], UnLines(ls[1..]));
      LinesOfUnLines(ls[1..]);
    }
  }

  /** Joining the texts of blocks with the text of `sep` gives the text of
      the blocks joined by `sep`. */
  lemma {:induction false} UnLinesJoinBlocks(bs: seq<seq<string>>, ts: seq<string>, sep: seq<string>)
    requires |ts| == |bs| && forall i :: 0 <= i < |bs| ==> ts[i] == UnLines(bs[i])
    ensures Join(ts, UnLines(sep)) == UnLines(JoinBlocks(bs, sep))
    decreases |bs|
  {
    if |bs| > 1 {
      UnLinesJoinBlocks(bs[1..], ts[1..], sep);
      UnLinesFrame(bs[0], sep, JoinBlocks(bs[1..], sep));
    }
  }

  lemma {:induction false} JoinBlocksSingleLine(bs: seq<seq<string>>, sep: seq<string>)
    requires forall i :: 0 <= i < |bs| ==> AllSingleLine(bs[i])
    requires AllSingleLine(sep)
    ensures AllSingleLine(JoinBlocks(bs, sep))
    decreases |bs|
  {
    if |bs| > 1 {
      JoinBlocksSingleLine(bs[1..], sep);
      AllSingleLineAppend(bs[0], sep);
      AllSingleLineAppend(bs[0] + sep, JoinBlocks(bs[1..], sep));
    }
  }

  /** Each part gets `mid` appended, except the last, which gets `last`. */
  function Delimit(parts: seq<string>, mid: string, last: string): (r: seq<string>)
    ensures |r| == |parts|
  {
    seq(|parts|, i requires 0 <= i < |parts| => parts[i] + (if i + 1 < |parts| then mid else last))
  }

  /** Joining with `mid` and a line break, then closing with `last` and a line
      break, puts each part on its own line carrying its delimiter. */
  lemma {:induction false} JoinAsLines(parts: seq<string>, mid: string, last: string)
    requires |parts| > 0
    ensures Join(parts, mid + "\n") + last + "\n" == UnLines(Delimit(parts, mid, last))
    decreases |parts|
  {
    var d := Delimit(parts, mid, last);
    if |parts| == 1 {
      assert d == [parts[0] + last];
    } else {
      JoinAsLines(parts[1..], mid, last);
      var dt := Delimit(parts[1..], mid, last);
      assert d[1..] == dt;
      assert d[0] == parts[0] + mid;
    }
  }

  /** Joins of non-empty groups, joined again with the same separator, equal
      the join of all parts in order. */
  lemma {:induction false} JoinFlatten(ss: seq<seq<string>>, sep: string)
    requires forall i :: 0 <= i < |ss| ==> |ss[i]| > 0
    ensures Join(seq(|ss|, i requires 0 <= i < |ss| => Join(ss[i], sep)), sep) == Join(Flatten(ss), sep)
    decreases |ss|
  {
    var outer := seq(|ss|, i requires 0 <= i < |ss| => Join(ss[i], sep));
    if |ss| == 0 {
    } else if |ss| == 1 {
      assert Flatten(ss) == ss[0] + Flatten(ss[1..]);
      assert Flatten(ss[1..]) == [];
      assert Flatten(ss) == ss[0];
    } else {
      var tail := seq(|ss[1..]|, i requires 0 <= i < |ss[1..]| => Join(ss[1..][i], sep));
      assert outer[1..] == tail;
      JoinFlatten(ss[1..], sep);
      FlattenNonEmpty(ss[1..]);
      JoinAppend(ss[0], Flatten(ss[1..]), sep);
    }
  }

  lemma {:induction false} FlattenNonEmpty(ss: seq<seq<string>>)
    requires |ss| > 0 && forall i :: 0 <= i < |ss| ==> |ss[i]| > 0
    ensures |Flatten(ss)| > 0
  {
  }

  lemma DigitValueOfDigit(d: nat)
    requires d < 10
    ensures DigitValue(Digit(d)) == d
  {
  }

  /** Decimal rendering is invertible, so distinct indices render distinctly. */
  lemma {:induction false} DecimalRoundTrip(n: nat)
    ensures DecimalValue(NatToString(n)) == n
    decreases n
  {
    var s := NatToString(n);
    if n < 10 {
      DigitValueOfDigit(n);
      assert s[..0] == [];
    } else {
      DecimalRoundTrip(n / 10);
      DigitValueOfDigit(n % 10);
      assert s[..|s| - 1] == NatToString(n / 10);
    }
  }

  lemma NatToStringInjective(m: nat, n: nat)
    ensures NatToString(m) == NatToString(n) <==> m == n
  {
    DecimalRoundTrip(m);
    DecimalRoundTrip(n);
  }

  lemma NatToStringSingleLine(n: nat)
    ensures SingleLine(NatToString(n))
  {
    var s := NatToString(n);
    assert forall i :: 0 <= i < |s| ==> s[i] != '\n';
  }
}

=== FILE: typemap.dfy ===
/** The type mapper: how a field type is written in Swift. */
module TypeMap {
  import opened Schema
  import opened Text
  import Wrappers

  /** The fixed-width Swift name of a primitive. */
  function CoreName(c: CoreType): string
  {
    match c
    case Bool => "Bool"
    case U8 => "UInt8"
    case U16 => "UInt16"
    case U32 => "UInt32"
    case U64 => "UInt64"
    case I8 => "Int8"
    case I16 => "Int16"
    case I32 => "Int32"
    case I64 => "Int64"
    case F32 => "Float32"
    case F64 => "Float64"
  }

  /** Written in place of a reference whose path has no segment. */
  const Placeholder: string := "????"

  /** A reference is written as its last segment; qualifiers are dropped. */
  function PathName(p: TypePath): string
  {
    if |p.segments| == 0 then Placeholder else p.segments[|p.segments| - 1]
  }

  /** The Swift spelling of a field type. Total: it never fails. */
  function TypeName(t: Type): string
  {
    match t
    case Core(c) => CoreName(c)
    case String => "String"
    case Item(p) => PathName(p)
    case Option(inner) => "Optional<" + TypeName(inner) + ">"
    case Vec(inner) => "Array<" + TypeName(inner) + ">"
  }

  // ---------------------------------------------------------------------
  // Reference definitions the mapper is checked against

  /** The name stem each kind of primitive carries. */
  function KindPrefix(k: Kind): string
  {
    match k
    case Boolean => "Bool"
    case Unsigned => "UInt"
    case Signed => "Int"
    case Floating => "Float"
  }

  /** Reads a primitive back from its Swift name. */
  function CoreFromName(s: string): Wrappers.Option<CoreType>
  {
    if s == "Bool" then Wrappers.Some(Bool)
    else if s == "UInt8" then Wrappers.Some(U8)
    else if s == "UInt16" then Wrappers.Some(U16)
    else if s == "UInt32" then Wrappers.Some(U32)
    else if s == "UInt64" then Wrappers.Some(U64)
    else if s == "Int8" then Wrappers.Some(I8)
    else if s == "Int16" then Wrappers.Some(I16)
    else if s == "Int32" then Wrappers.Some(I32)
    else if s == "Int64" then Wrappers.Some(I64)
    else if s == "Float32" then Wrappers.Some(F32)
    else if s == "Float64" then Wrappers.Some(F64)
    else Wrappers.None
  }

  /** The opening wrappers of a type, outermost first. */
  function WrapperOpen(t: Type): string
  {
    match t
    case Option(inner) => "Optional<" + WrapperOpen(inner)
    case Vec(inner) => "Array<" + WrapperOpen(inner)
    case _ => ""
  }

  function Closers(n: nat): (s: string)
    ensures |s| == n && forall i :: 0 <= i < n ==> s[i] == '>'
  {
    if n == 0 then "" else Closers(n - 1) + ">"
  }

  /** A type with every reference cut down to the one name the mapper keeps. */
  function Canon(t: Type): Type
  {
    match t
    case Item(p) => Item(TypePath([PathName(p)]))
    case Option(inner) => Option(Canon(inner))
    case Vec(inner) => Vec(Canon(inner))
    case _ => t
  }

  /** A reference name that cannot be mistaken for another type's spelling. */
  predicate ResolvableName(n: string)
  {
    '<' !in n && n != "String" && CoreFromName(n).None?
  }

  predicate Resolvable(t: Type)
  {
    match t
    case Item(p) => ResolvableName(PathName(p))
    case Option(inner) => Resolvable(inner)
    case Vec(inner) => Resolvable(inner)
    case _ => true
  }

  /** Reads a type back from its Swift spelling. */
  function ParseTypeName(s: string): Type
    decreases |s|
  {
    if |s| >= 10 && s[..9] == "Optional<" && s[|s| - 1] == '>' then
      Option(ParseTypeName(s[9..|s| - 1]))
    else if |s| >= 7 && s[..6] == "Array<" && s[|s| - 1] == '>' then
      Vec(ParseTypeName(s[6..|s| - 1]))
    else if s == "String" then
      String
    else
      match CoreFromName(s)
      case Some(c) => Core(c)
      case None => Item(TypePath([s]))
  }

  /** No path segment holds a line break. */
  predicate SingleLinePaths(t: Type)
  {
    match t
    case Item(p) => forall i :: 0 <= i < |p.segments| ==> SingleLine(p.segments[i])
    case Option(inner) => SingleLinePaths(inner)
    case Vec(inner) => SingleLinePaths(inner)
    case _ => true
  }

  // ---------------------------------------------------------------------
  // Lemmas

  /** A primitive's name is its kind's stem followed by its width, so the
      mapping keeps signedness and width exactly. */
  lemma CoreNameEncodesKindAndWidth(c: CoreType)
    ensures c == Bool ==> CoreName(c) == KindPrefix(KindOf(c))
    ensures c != Bool ==> CoreName(c) == KindPrefix(KindOf(c)) + NatToString(Bits(c))
  {
    WidthNames();
  }

  lemma WidthNames()
    ensures NatToString(8) == "8" && NatToString(16) == "16"
    ensures NatToString(32) == "32" && NatToString(64) == "64"
  {
    assert NatToString(16) == NatToString(1) + [Digit(6)];
    assert NatToString(32) == NatToString(3) + [Digit(2)];
    assert NatToString(64) == NatToString(6) + [Digit(4)];
  }

  /** Reading a primitive's name gives back the primitive. */
  lemma CoreNameRoundTrip(c: CoreType)
    ensures CoreFromName(CoreName(c)) == Wrappers.Some(c)
  {
  }

  /** The primitive table is one-to-one. */
  lemma CoreNameInjective(c: CoreType, d: CoreType)
    ensures CoreName(c) == CoreName(d) <==> c == d
  {
    CoreNameRoundTrip(c);
    CoreNameRoundTrip(d);
  }

  /** The mapper is compositional: a type is written as its wrappers'
      openings, outermost first, then its base type, then one `>` per
      wrapper. */
  lemma {:induction false} TypeNameShape(t: Type)
    ensures TypeName(t) == WrapperOpen(t) + TypeName(Base(t)) + Closers(Depth(t))
  {
    match t
    case Option(inner) =>
      TypeNameShape(inner);
      WrapRegroup("Optional<", WrapperOpen(inner), TypeName(Base(inner)), Closers(Depth(inner)));
    case Vec(inner) =>
      TypeNameShape(inner);
      WrapRegroup("Array<", WrapperOpen(inner), TypeName(Base(inner)), Closers(Depth(inner)));
    case _ =>
  }

  /** One more wrapper around an opening, a base and closers. */
  lemma WrapRegroup(o: string, w: string, b: string, c: string)
    ensures o + (w + b + c) + ">" == (o + w) + b + (c + ">")
  {
  }

  /** The nested example: an optional array of 32-bit unsigned integers. */
  lemma NestedTypeName()
    ensures TypeName(Option(Vec(Core(U32)))) == "Optional<Array<UInt32>>"
  {
    assert TypeName(Vec(Core(U32))) == "Array<UInt32>";
  }

  /** An array of optional references to a qualified record. */
  lemma NestedPathTypeName()
    ensures TypeName(Vec(Option(Item(TypePath(["geo", "Point"]))))) == "Array<Optional<Point>>"
  {
    assert TypeName(Option(Item(TypePath(["geo", "Point"])))) == "Optional<Point>";
  }

  /** A path is written as its last segment whatever qualifies it; the empty
      path is written as the placeholder instead of failing. */
  lemma PathNameLastSegment(qualifiers: seq<string>, name: string)
    ensures PathName(TypePath(qualifiers + [name])) == name
    ensures TypeName(Item(TypePath([]))) == "????"
  {
  }

  /** Different qualified references to equally named items collide. */
  lemma QualifiedReferencesCollide()
    ensures Item(TypePath(["a", "Shape"])) != Item(TypePath(["b", "Shape"]))
    ensures TypeName(Item(TypePath(["a", "Shape"]))) == TypeName(Item(TypePath(["b", "Shape"])))
    ensures TypeName(Item(TypePath(["String"]))) == TypeName(String)
  {
  }

  lemma {:induction false} TypeNameOfCanon(t: Type)
    ensures TypeName(Canon(t)) == TypeName(t)
  {
    match t
    case Option(inner) => TypeNameOfCanon(inner);
    case Vec(inner) => TypeNameOfCanon(inner);
    case _ =>
  }

  lemma CoreNameShort(c: CoreType)
    ensures 4 <= |CoreName(c)| <= 7
    ensures CoreName(c)[0] != 'O' && CoreName(c) != "String"
  {
  }

  /** Reading a type's spelling back gives the type with its references cut
      down to their last segment, provided no reference name looks like
      another type's spelling. */
  lemma {:induction false} ParseTypeNameRoundTrip(t: Type)
    requires Resolvable(t)
    ensures ParseTypeName(TypeName(t)) == Canon(t)
  {
    var s := TypeName(t);
    match t
    case Core(c) =>
      CoreNameShort(c);
      CoreNameRoundTrip(c);
      if |s| >= 7 {
        assert s[..6] != "Array<" by { assert s[..6][5] == s[5] != '<'; }
      }
    case String =>
    case Item(p) =>
      var n := PathName(p);
      assert '<' !in n;
      if |s| >= 10 {
        assert s[..9] != "Optional<" by { assert s[8] in n; }
      }
      if |s| >= 7 {
        assert s[..6] != "Array<" by { assert s[5] in n; }
      }
    case Option(inner) =>
      ParseTypeNameRoundTrip(inner);
      assert s[..9] == "Optional<";
      assert s[9..|s| - 1] == TypeName(inner);
    case Vec(inner) =>
      ParseTypeNameRoundTrip(inner);
      if |s| >= 10 {
        assert s[..9] != "Optional<" by { assert s[0] == 'A'; }
      }
      assert s[..6] == "Array<";
      assert s[6..|s| - 1] == TypeName(inner);
  }

  /** Two types are written alike exactly when they agree up to the
      qualifiers of their references. */
  lemma TypeNameInjective(t1: Type, t2: Type)
    requires Resolvable(t1) && Resolvable(t2)
    ensures TypeName(t1) == TypeName(t2) <==> Canon(t1) == Canon(t2)
  {
    ParseTypeNameRoundTrip(t1);
    ParseTypeNameRoundTrip(t2);
    TypeNameOfCanon(t1);
    TypeNameOfCanon(t2);
  }

  lemma {:induction false} TypeNameSingleLine(t: Type)
    requires SingleLinePaths(t)
    ensures SingleLine(TypeName(t))
  {
    match t
    case Option(inner) => TypeNameSingleLine(inner);
    case Vec(inner) => TypeNameSingleLine(inner);
    case Core(c) => CoreNameSingleLine(c);
    case String =>
    case Item(p) =>
  }

  lemma CoreNameSingleLine(c: CoreType)
    ensures SingleLine(CoreName(c))
  {
  }
}

=== FILE: wrappers.dfy ===
/** Outcomes of operations that can come back empty or fail. */
module Wrappers {

  /** A lookup that may find nothing. */
  datatype Option<+T> = None | Some(value: T)

  /** A value, or the reason none could be produced. */
  datatype Result<+T, +E> = Ok(value: T) | Err(failure: E)
}
